=== FILE: README.md ===
# Wake-on-LAN service listener, modelled in Dafny

The program runs on a NAS. By default it listens on a UDP port for a
Wake-on-LAN magic packet addressed to its own network interface. When one
arrives, it restarts the configured systemd services (`systemctl start`, in
list order). With `--shutdown` it runs the power-off sequence instead:
`shutdown +<delay>`, optionally `docker stop` for every running container,
`systemctl stop` for every service, optionally `exportfs -au`, then `sync`.

The model takes the logic out of the I/O and writes it as pure functions:

- `MacAddress.ParseMac` parses the text of `/sys/class/net/<if>/address`.
  The text is trimmed and split on `:`. Each segment goes through
  `u8::from_str_radix(_, 16)` (`Hex.ParseHexByte`), and a segment that fails
  to parse silently becomes 0. The result is an address only when there are
  exactly six segments.
- `MagicPacket.IsMagic` is the packet test. It needs at least 102 bytes,
  six `0xFF` bytes, then the interface's address in bytes 6..12. Bytes from
  12 on are never read, even though a comment in the source says the 16
  address copies are checked. `MagicPacket.Receive` models `recv_from`
  writing into the reused 1024-byte buffer.
- `Commands.Execute` runs a list of commands against a `Spawner`: an oracle
  that gives the outcome of the k-th command spawned. A command that cannot
  be spawned ends the run with an I/O error (the source's `?`). A non-zero
  exit status only changes the printed report. The container label
  `&id[..12.min(id.len())]` slices by bytes, so it is modelled with UTF-8
  widths. A slice that would split a character panics.
- `Activator.StartServices` is the restart loop. `Listener.Listen` handles a
  finite sequence of receive results one at a time, and `Listener.RunListener`
  adds the address lookup and the bind in front of it.
- `Shutdown.ShutdownPlan` is the command list of the shutdown sequence.
  `Shutdown.RunShutdown` runs it. The plan depends on the output of
  `docker ps -q`, which the model takes from the spawner's answer to the
  second command.
- `Cli.SelectMode` maps the command line to a mode. `Cli.Start` records that
  the arguments are collected first but only examined after the
  configuration is loaded.

Whitespace for `trim` is Rust's `char::is_whitespace`: ASCII space,
U+0009..U+000D, and the Unicode White_Space characters above U+007F.
Bytes are `Ints.u8`, an integer newtype holding 0..255.

A non-zero exit status only changes the `OK`/`Erreur` report. A
`systemctl start` or `stop` that cannot be spawned returns the error through
`?` (src/main.rs:85, 127), which ends the listener or the shutdown sequence,
so the remaining services are not touched.

## Model

| member | source | states |
|---|---|---|
| Hex.ParseHexByte | src/main.rs:32 | `from_str_radix(s, 16)` succeeds exactly when `s` is an optional `+` and then one or more hex digits of either case worth at most 255; the value is that number |
| Hex.AccumulateMeaning | src/main.rs:32 | Rust's digit loop, which fails on the first bad digit or as soon as the value passes 255, fails exactly when the string is not all hex or its value exceeds 255 |
| Hex.TwoDigits | src/main.rs:32 | two hex digits parse to `16 * high + low`, which always fits in a byte |
| Hex.ParseHex2 | src/main.rs:32 | parsing a byte printed as two lower-case hex digits gives the byte back |
| MacAddress.SegmentByte | src/main.rs:32 | a segment gives its base-16 value when it is a valid `u8` and 0 otherwise |
| MacAddress.ParseMac | src/main.rs:31-41 | an address exactly when the trimmed text splits on `:` into six segments; byte i is segment i's value, or 0 when segment i does not parse |
| MacAddress.ParseAddressFile | src/main.rs:29-41 | round trip: the text the OS writes for an address (`xx:..:xx` and a newline) parses back to that address |
| MacAddress.ParseMacOfSegments | src/main.rs:31-41 | six colon-free, whitespace-free segments joined with `:` and followed by whitespace parse to the bytes of those segments, and a segment that is not a valid `u8` gives 0 rather than failing the parse |
| MacAddress.MalformedSegment | src/main.rs:32 | a segment ending in a non-hex character, such as `zz`, gives 0 |
| MacAddress.TwoDigitSegment | src/main.rs:32 | a segment of two hex digits of either case, such as `BB` or `bb`, gives the byte they spell |
| MacAddress.PrintedBytes | src/main.rs:32 | each segment of the address as the operating system prints it reads back as its byte |
| MacAddress.ParseMacEmpty | src/main.rs:31-40 | empty text is one empty segment, so it is not an address |
| Text.FirstSolid | src/main.rs:31 | where `trim` starts: only whitespace lies before the index, and the character at it is not whitespace |
| Text.EndOfSolid | src/main.rs:31 | where `trim` ends: only whitespace lies after the index, and the character before it is not whitespace |
| Text.Trim | src/main.rs:31 | `trim` returns a slice of its input with no whitespace at either end, and only whitespace is cut away |
| Text.TrimPadded | src/main.rs:31 | a string with no whitespace at either end, padded with whitespace on both sides, trims back to itself, so `trim` is fully determined |
| Text.Split | src/main.rs:31 | `split(':')` gives at least one segment, no segment holds `:`, and joining the segments with `:` rebuilds the input |
| Text.JoinInjective | src/main.rs:31 | two colon-free segment lists with the same join are equal, so the segments of a split are unique |
| Text.SplitJoin | src/main.rs:31 | splitting a join of separator-free segments gives back those segments |
| Text.Lines | src/main.rs:65 | `lines` never returns a piece containing a newline |
| Text.LinesOfJoin | src/main.rs:65 | lines joined with `\n` come back as those lines when none holds a line break and the last is not empty |
| Text.BytePrefix | src/main.rs:70 | when `&s[..n]` succeeds it is the character prefix of `s` that is exactly `n` UTF-8 bytes long |
| Text.BytePrefixNone | src/main.rs:70 | `&s[..n]` panics only when no character prefix of `s` is `n` bytes long |
| Commands.ShortId | src/main.rs:70 | the container label is a prefix of the id with `min(12, len)` bytes |
| Commands.ShortIdPanics | src/main.rs:70 | the label panics only for an id over 12 bytes in which no character ends at byte 12 |
| Commands.ShortIdAscii | src/main.rs:70 | for an ASCII id the label is its first `min(12, len)` characters and never panics |
| Commands.Execute | src/main.rs:82-87 | the commands are issued in order, each with the outcome of its own spawn, and never more than were given |
| Commands.StepEnding | src/main.rs:66-70 | a command that cannot be spawned ends the run with the I/O error; a spawned `docker stop` whose 12-byte label cannot be cut panics; otherwise the run goes on |
| Commands.StepEndingPanics | src/main.rs:70 | a step panics exactly when it is a spawned `docker stop` whose id is longer than 12 bytes and has no character boundary at byte 12 |
| Commands.ExecuteEnding | src/main.rs:82-87 | the run stops right after the first step that cannot be spawned (or whose report panics), with that step's ending, and finishes exactly when every command was issued and every step went on |
| Commands.RunWithoutPanics | src/main.rs:82-87 | commands that cannot panic all run exactly when each can be spawned; otherwise the run returns the I/O error of the last command issued, every earlier one having been spawned |
| Commands.StopsAt | src/main.rs:82-87 | the first step that ends the run is the last one issued, and it gives the run's ending |
| Commands.ExecuteAll | src/main.rs:82-87 | while every command can be spawned, all are issued whatever their exit statuses |
| Commands.ExecuteStopsAtSpawnError | src/main.rs:83-85 | a command that cannot be spawned is the last one issued, and the run returns an I/O error |
| MagicPacket.Receive | src/main.rs:113-115 | the datagram overwrites the front of the buffer (cut to fit), the rest keeps older bytes, and the count returned is what was written |
| MagicPacket.ShortIsNotMagic | src/main.rs:118 | fewer than 102 received bytes is never a match, whatever the buffer holds |
| MagicPacket.IsMagic | src/main.rs:118-122 | a match exactly when at least 102 bytes were received, bytes 0..6 are all `0xFF` and bytes 6..12 equal the 6-byte address |
| MagicPacket.OnlyFirstTwelveBytesRead | src/main.rs:118-120 | two buffers that agree on their first 12 bytes get the same answer |
| MagicPacket.TrailingByteIgnored | src/main.rs:117-120 | changing any byte at index 12 or later never changes the answer, so the 16 address copies are not checked |
| MagicPacket.HeaderOrAddressByteMatters | src/main.rs:119-122 | changing any one of the first 12 bytes of a match makes it a non-match |
| MagicPacket.ReceivedMagic | src/main.rs:113-122 | after a receive into the reused buffer, the answer depends on the datagram alone, never on stale bytes from earlier datagrams |
| MagicPacket.CanonicalIsMagic | src/main.rs:117-122 | every real Wake-on-LAN magic packet for the address is accepted |
| MagicPacket.RelaxedPacketAccepted | src/main.rs:117-122 | a 102-byte packet with the header and a single address copy is accepted but is not a Wake-on-LAN magic packet |
| Activator.StartRequests | src/main.rs:124-127 | one `systemctl start` per service, in list order |
| Activator.StartServices | src/main.rs:124-129 | starts are issued in list order; the loop completes exactly when every start can be spawned; a spawn error is the last start issued |
| Activator.StatusDoesNotStop | src/main.rs:125-128 | when every start can be spawned, each service is started exactly once, in order, whatever the exit statuses |
| Activator.SpawnErrorAborts | src/main.rs:125-127 | when the k-th start cannot be spawned, exactly services 0..k are started and the loop's `?` returns the error |
| Activator.MiddleFailureExample | src/main.rs:124-129 | with services a, b, c where b's start exits unsuccessfully, all three are started and the loop completes |
| Listener.Listen | src/main.rs:113-132 | the listener issues only `systemctl start` commands and never panics, console writes being taken never to fail |
| Listener.ListenStopsAtRecvError | src/main.rs:114-115 | a receive error returns the error from the listener; what was issued is one full round per magic packet received before it, and nothing received later is handled |
| Listener.ListenStopsAtSpawnError | src/main.rs:114-127 | a start that cannot be spawned returns the error from the listener; the earlier magic packets got full rounds, the failing round stops at the failing service, and nothing received later is handled |
| Listener.ListenRestartsPerWake | src/main.rs:114-131 | with no receive or spawn errors, the full service list is started once per magic packet for the address, in order, and nothing else is issued |
| Listener.RunListener | src/main.rs:106-110 | an unreadable or unparseable address file panics before anything else; a failed bind returns its error |
| Listener.RunListenerRestartsPerWake | src/main.rs:106-131 | once the address file parses and the bind succeeds, with no receive or spawn errors the listener starts the full service list once per magic packet for the file's address, in order, and issues nothing else |
| Listener.WakeEndToEnd | src/main.rs:106-131 | for any address (01:02:03:04:05:06, say) written in the address file, one 102-byte packet (header, one address copy, 90 zero bytes) starts every service once, in order |
| Shutdown.ContainerIds | src/main.rs:63-65 | all-whitespace `docker ps -q` output lists no containers |
| Shutdown.ContainerIdsOfPsOutput | src/main.rs:59-65 | reading the ids back out of what `docker ps -q` prints gives the running containers, in order |
| Shutdown.ShutdownPlan | src/main.rs:44-97 | starts with `shutdown +<delay>` and ends with `sync`; has `docker ps` iff `docker_stop` and `exportfs -au` iff `unexport_nfs`; stops the listed containers (only with `docker_stop`) and the services in order; the steps come in phase order; its length is exactly the sum of the parts |
| Shutdown.RunShutdown | src/main.rs:44-104 | the commands issued are a prefix of the plan, computed from the output of the `docker ps` actually run |
| Shutdown.ShutdownRunsWholePlan | src/main.rs:52-97 | when every command can be spawned and the container ids are ASCII, the whole plan is issued whatever the exit statuses |
| Shutdown.ShutdownStopsAtSpawnError | src/main.rs:52-97 | a command of the plan that cannot be spawned is the last one issued, and the sequence returns the error |
| Cli.SelectMode | src/main.rs:155-171 | no argument selects the listener; `--shutdown`/`-s` the shutdown; `--help`/`-h` the usage; any other first argument is an unknown option |
| Cli.ImmediateExit | src/main.rs:158-166 | usage exits 0 and an unknown option exits 1; the other modes run |
| Cli.LaterArgumentsIgnored | src/main.rs:155-156 | arguments after the first are ignored |
| Cli.Start | src/main.rs:148-157 | a configuration that cannot be loaded panics whatever the arguments, `--help` included |

## Left out

- Reading `/sys/class/net/<if>/address` and `config.toml` (src/main.rs:29-30, 148-150): file I/O. The address file's contents are an `Option<string>` input, and the configuration is an `Option<Config>`.
- TOML deserialisation and `default_delay` (src/main.rs:7-26, 151-152): behaviour of a foreign library. `Config` holds the values after parsing.
- The UDP socket (src/main.rs:110-115): the bind outcome is a boolean. The blocking, never-ending `recv_from` loop becomes a finite sequence of receive results. A datagram longer than the buffer is cut to fit, as on Linux.
- Spawning processes: each command is an abstract `Command` value, and the `Spawner` oracle gives its outcome. The exact argument strings (the shutdown message, the decimal rendering of `+<delay>`) are not modelled.
- `String::from_utf8_lossy` on the output of `docker ps -q`: the oracle returns that output already decoded.
- All `println!`/`eprintln!` text and `print_usage` (src/main.rs:135-142): console output. Only the container-label slice is kept, because it is the only panic that does not come from the write itself.
- Writes to stdout/stderr are taken never to fail. `println!`/`eprintln!` panic when they do, for example on a closed pipe or a full disk (src/main.rs:111, 123, 128 on the listener path, 47-101 in the shutdown sequence, 136-141 and 163 for the usage text and the unknown option). The model does not include that panic, so "never panics" in the contracts of `Listener.Listen` and `Activator.StartServices` holds only relative to this.
- Command-line arguments that are not valid Unicode (src/main.rs:145): `env::args()` panics on them before the configuration is read. Arguments are modelled as decoded Unicode strings, so that panic is not modelled.
- Exit codes of a panic or of an `Err` returned from `main`: only the immediate exits of `--help` and an unknown option are modelled.

=== FILE: activator.dfy ===
/** The loop that restarts every configured service after a valid wake packet. */
module Activator {
  import opened Commands

  /** One `systemctl start` per service, in list order. */
  function StartRequests(services: seq<string>): (cmds: seq<Command>)
    ensures |cmds| == |services|
    ensures forall i :: 0 <= i < |services| ==> cmds[i] == SystemctlStart(services[i])
  {
    seq(|services|, i requires 0 <= i < |services| => SystemctlStart(services[i]))
  }

  /** Starts the services in order, the first request being the `n`-th
      command spawned. A service whose start exits unsuccessfully is only
      reported; a start that cannot be spawned ends the whole listener. */
  function StartServices(services: seq<string>, spawn: Spawner, n: nat): (t: Trace)
    ensures |t.events| <= |services|
    ensures forall i :: 0 <= i < |t.events| ==>
      t.events[i] == Event(SystemctlStart(services[i]), spawn(n + i))
    ensures t.ending != Panicked
    ensures t.ending == Finished <==> SpawnsBetween(spawn, n, n + |services|)
    ensures t.ending == Finished ==> |t.events| == |services|
    ensures t.ending == IoError ==>
      && |t.events| > 0
      && spawn(n + |t.events| - 1).SpawnFailed?
      && SpawnsBetween(spawn, n, n + |t.events| - 1)
  {
    StartRunFacts(services, spawn, n);
    Execute(StartRequests(services), spawn, n)
  }

  /** How `Execute`'s stopping rule reads for start requests, which never panic. */
  lemma StartRunFacts(services: seq<string>, spawn: Spawner, n: nat)
    ensures var t := Execute(StartRequests(services), spawn, n);
      && t.ending != Panicked
      && (t.ending == Finished <==> SpawnsBetween(spawn, n, n + |services|))
      && (t.ending == Finished ==> |t.events| == |services|)
      && (t.ending == IoError ==>
        && |t.events| > 0
        && spawn(n + |t.events| - 1).SpawnFailed?
        && SpawnsBetween(spawn, n, n + |t.events| - 1))
  {
    var cmds := StartRequests(services);
    assert NoPanics(cmds);
    RunWithoutPanics(cmds, spawn, n);
  }

  /** A failing exit status never stops the loop: while every start can be
      spawned, each service is started exactly once, in order. */
  lemma StatusDoesNotStop(services: seq<string>, spawn: Spawner, n: nat)
    requires SpawnsBetween(spawn, n, n + |services|)
    ensures Issued(StartServices(services, spawn, n)) == StartRequests(services)
    ensures StartServices(services, spawn, n).ending == Finished
  {
  }

  /** A start that cannot be spawned is the last one tried: the services
      after it are not started and the error propagates. */
  lemma SpawnErrorAborts(services: seq<string>, spawn: Spawner, n: nat, k: nat)
    requires k < |services|
    requires SpawnsBetween(spawn, n, n + k)
    requires spawn(n + k).SpawnFailed?
    ensures Issued(StartServices(services, spawn, n)) == StartRequests(services[..k + 1])
    ensures StartServices(services, spawn, n).ending == IoError
  {
    var cmds := StartRequests(services);
    assert NoPanics(cmds[..k]);
    ExecuteStopsAtSpawnError(cmds, spawn, n, k);
    assert cmds[..k + 1] == StartRequests(services[..k + 1]);
  }

  /** Three services, the second of which fails to start: all three are
      started, in order, and the loop completes. */
  lemma MiddleFailureExample(spawn: Spawner)
    requires spawn(0) == Exited(true, "") && spawn(1) == Exited(false, "") && spawn(2) == Exited(true, "")
    ensures Issued(StartServices(["a", "b", "c"], spawn, 0)) ==
      [SystemctlStart("a"), SystemctlStart("b"), SystemctlStart("c")]
    ensures StartServices(["a", "b", "c"], spawn, 0).ending == Finished
  {
    StatusDoesNotStop(["a", "b", "c"], spawn, 0);
  }
}

=== FILE: cli.dfy ===
/**
 `main`: the configuration is loaded before the arguments are looked at,
 then the first argument after the program name picks the mode.
 */
module Cli {
  import opened Wrappers
  import opened Config

  datatype Mode = WolListener | ShutdownSequence | Help | UnknownOption(option: string)

  /** The mode `args` selects (`args[0]` is the program name). */
  function SelectMode(args: seq<string>): (m: Mode)
    ensures |args| <= 1 ==> m == WolListener
    ensures m == ShutdownSequence <==> |args| > 1 && (args[1] == "--shutdown" || args[1] == "-s")
    ensures m == Help <==> |args| > 1 && (args[1] == "--help" || args[1] == "-h")
    ensures m.UnknownOption? <==>
      |args| > 1 && args[1] != "--shutdown" && args[1] != "-s" && args[1] != "--help" && args[1] != "-h"
    ensures m.UnknownOption? ==> m.option == args[1]
  {
    if |args| > 1 then
      match args[1]
      case "--shutdown" => ShutdownSequence
      case "-s" => ShutdownSequence
      case "--help" => Help
      case "-h" => Help
      case other => UnknownOption(other)
    else WolListener
  }

  /** The exit status a mode ends with right away: 0 after the usage text,
      1 after an unknown option; the listener and the shutdown sequence run. */
  function ImmediateExit(m: Mode): (code: Option<int>)
    ensures code.Some? <==> m.Help? || m.UnknownOption?
    ensures m.UnknownOption? ==> code == Some(1)
    ensures m.Help? ==> code == Some(0)
  {
    match m
    case Help => Some(0)
    case UnknownOption(_) => Some(1)
    case _ => None
  }

  /** Arguments after the first one are never looked at. */
  lemma LaterArgumentsIgnored(args: seq<string>, extra: seq<string>)
    requires |args| >= 2
    ensures SelectMode(args + extra) == SelectMode(args)
    ensures SelectMode(args) == SelectMode(args[..2])
  {
    assert (args + extra)[1] == args[1] == args[..2][1];
  }

  /** How the process starts: the arguments are collected first, but a
      configuration that cannot be read or parsed panics before they are
      examined, so even `--help` needs one. */
  datatype Launch = ConfigPanic | Dispatch(mode: Mode, config: Config)

  function Start(args: seq<string>, config: Option<Config>): (l: Launch)
    ensures config.None? ==> l == ConfigPanic
    ensures config.Some? ==> l == Dispatch(SelectMode(args), config.value)
  {
    match config
    case None => ConfigPanic
    case Some(c) => Dispatch(SelectMode(args), c)
  }
}

=== FILE: commands.dfy ===
/**
 The external commands the program runs, what running one can come to, and
 the sequential runner shared by the wake and shutdown paths: commands are
 spawned one after another and a failure to spawn ends the run (the `?` on
 `Command::status()`), while a non-zero exit status only changes the
 `OK`/`Erreur` report and the run goes on.
 */
module Commands {
  import opened Wrappers
  import opened Ints
  import opened Text

  datatype Command =
    | ScheduleShutdown(delayMinutes: u32)   // shutdown +<delay> <message>
    | DockerPs                              // docker ps -q
    | DockerStop(container: string)         // docker stop <id>
    | SystemctlStart(unit: string)          // systemctl start <unit>
    | SystemctlStop(unit: string)           // systemctl stop <unit>
    | UnexportAll                           // exportfs -au
    | Sync                                  // sync

  /** What spawning a command gives: an I/O error, or an exit status and
      the captured standard output (only `docker ps -q` has its output read). */
  datatype Outcome = SpawnFailed | Exited(success: bool, stdout: string)

  /** The answer the operating system gives to the `k`-th command spawned. */
  type Spawner = nat -> Outcome

  /** How a run stops: all commands issued, an I/O error returned by `?`,
      or the panic of the container-label slice. Writes to the console are
      taken never to fail, so the panic of a failed `println!` is not one of
      these endings. */
  datatype Ending = Finished | IoError | Panicked

  datatype Event = Event(command: Command, outcome: Outcome)

  /** The commands a run issued, in order, with how the run stopped. */
  datatype Trace = Trace(events: seq<Event>, ending: Ending)

  function Issued(t: Trace): (cmds: seq<Command>)
    ensures |cmds| == |t.events|
    ensures forall i :: 0 <= i < |cmds| ==> cmds[i] == t.events[i].command
  {
    seq(|t.events|, i requires 0 <= i < |t.events| => t.events[i].command)
  }

  function StdoutOf(o: Outcome): string {
    if o.Exited? then o.stdout else ""
  }

  /** `&id[..12.min(id.len())]`: the first twelve bytes of a container id as
      printed in the report, `None` where the slice panics because byte 12
      falls inside a multi-byte character. */
  function ShortId(id: string): (r: Option<string>)
    ensures r.Some? ==> |r.value| <= |id| && r.value == id[..|r.value|]
    ensures r.Some? ==> ByteLen(r.value) == if ByteLen(id) < 12 then ByteLen(id) else 12
  {
    assert id[..|id|] == id;
    BytePrefix(id, if ByteLen(id) < 12 then ByteLen(id) else 12)
  }

  /** The label panics only for an id longer than twelve bytes in which no
      character ends at byte 12. */
  lemma ShortIdPanics(id: string)
    requires ShortId(id).None?
    ensures ByteLen(id) > 12
    ensures forall k :: 0 <= k <= |id| ==> ByteLen(id[..k]) != 12
  {
    var n := if ByteLen(id) < 12 then ByteLen(id) else 12;
    BytePrefixNone(id, n);
    assert id[..|id|] == id;
  }

  /** Docker's ids are ASCII, and for those the label is the first twelve
      characters, or the whole id when it is shorter. */
  lemma ShortIdAscii(id: string)
    requires IsAscii(id)
    ensures ShortId(id) == Some(id[..if |id| < 12 then |id| else 12])
  {
    ByteLenAscii(id);
    BytePrefixAscii(id, if |id| < 12 then |id| else 12);
  }

  /** Every command spawned with a number in `[from, to)` was spawned. */
  predicate SpawnsBetween(spawn: Spawner, from: nat, to: nat) {
    forall k: nat :: from <= k < to ==> spawn(k).Exited?
  }

  /** Whether the run stops after issuing `cmd` with outcome `o`: a command
      that cannot be spawned returns the I/O error, a `docker stop` whose
      label cannot be cut panics, and any other step lets the run go on. */
  function StepEnding(cmd: Command, o: Outcome): (e: Ending)
    ensures e == IoError <==> o.SpawnFailed?
    ensures e == Panicked <==> o.Exited? && cmd.DockerStop? && ShortId(cmd.container).None?
  {
    if o.SpawnFailed? then IoError
    else if cmd.DockerStop? && ShortId(cmd.container).None? then Panicked
    else Finished
  }

  /** A step panics exactly when it is a spawned `docker stop` whose id is
      longer than twelve bytes and has no character boundary at byte 12. */
  lemma StepEndingPanics(cmd: Command, o: Outcome)
    ensures StepEnding(cmd, o) == Panicked <==>
      && o.Exited?
      && cmd.DockerStop?
      && ByteLen(cmd.container) > 12
      && (forall k :: 0 <= k <= |cmd.container| ==> ByteLen(cmd.container[..k]) != 12)
  {
    if cmd.DockerStop? {
      var id := cmd.container;
      if ShortId(id).None? {
        ShortIdPanics(id);
      } else if ByteLen(id) > 12 {
        var short := ShortId(id).value;
        assert short == id[..|short|] && ByteLen(short) == 12;
      }
    }
  }

  /** Issues `cmds` in order, the first of them being the `n`-th command
      spawned, and stops right after the first step that ends the run. */
  function Execute(cmds: seq<Command>, spawn: Spawner, n: nat): (t: Trace)
    ensures |t.events| <= |cmds|
    ensures forall i :: 0 <= i < |t.events| ==> t.events[i] == Event(cmds[i], spawn(n + i))
    ensures t.ending != Finished ==> |t.events| > 0
    decreases |cmds|
  {
    if |cmds| == 0 then Trace([], Finished)
    else
      var e := Event(cmds[0], spawn(n));
      var stop := StepEnding(cmds[0], spawn(n));
      if stop != Finished then Trace([e], stop)
      else
        var rest := Execute(cmds[1..], spawn, n + 1);
        var events := [e] + rest.events;
        assert forall i :: 1 <= i < |events| ==> events[i] == rest.events[i - 1];
        assert forall i :: 1 <= i < |cmds| ==> cmds[i] == cmds[1..][i - 1];
        Trace(events, rest.ending)
  }

  /** The ending of step `i` of a run whose first command is the `n`-th spawned. */
  function StepAt(cmds: seq<Command>, spawn: Spawner, n: nat, i: nat): Ending
    requires i < |cmds|
  {
    StepEnding(cmds[i], spawn(n + i))
  }

  /** The first `k` steps all let the run go on. */
  predicate StepsFinish(cmds: seq<Command>, spawn: Spawner, n: nat, k: nat)
    requires k <= |cmds|
  {
    forall i: nat :: i < k ==> StepAt(cmds, spawn, n, i) == Finished
  }

  /** How a trace of `cmds` stops: at the first step that ends the run. Every
      step before the last one issued went on, the last step issued gives the
      ending, and the run finishes exactly when every command was issued and
      every step went on. */
  predicate StopsAtFirstEnd(cmds: seq<Command>, spawn: Spawner, n: nat, t: Trace) {
    && |t.events| <= |cmds|
    && StepsFinish(cmds, spawn, n, if |t.events| == 0 then 0 else |t.events| - 1)
    && (t.ending == Finished <==> |t.events| == |cmds| && StepsFinish(cmds, spawn, n, |cmds|))
    && (t.ending != Finished ==> |t.events| > 0 && StepAt(cmds, spawn, n, |t.events| - 1) == t.ending)
  }

  /** `Execute` stops at the first step that ends the run. */
  lemma {:induction false} ExecuteEnding(cmds: seq<Command>, spawn: Spawner, n: nat)
    ensures StopsAtFirstEnd(cmds, spawn, n, Execute(cmds, spawn, n))
    decreases |cmds|
  {
    if |cmds| > 0 && StepAt(cmds, spawn, n, 0) == Finished {
      var rest := Execute(cmds[1..], spawn, n + 1);
      ExecuteEnding(cmds[1..], spawn, n + 1);
      assert Execute(cmds, spawn, n) == Trace([Event(cmds[0], spawn(n))] + rest.events, rest.ending);
      EndingCons(cmds, spawn, n, rest);
    } else if |cmds| > 0 {
      assert Execute(cmds, spawn, n) == Trace([Event(cmds[0], spawn(n))], StepAt(cmds, spawn, n, 0));
    }
  }

  /** One step that goes on, in front of a run that stops at its first end,
      gives a run that stops at its first end. */
  lemma EndingCons(cmds: seq<Command>, spawn: Spawner, n: nat, rest: Trace)
    requires |cmds| > 0 && StepAt(cmds, spawn, n, 0) == Finished
    requires StopsAtFirstEnd(cmds[1..], spawn, n + 1, rest)
    ensures StopsAtFirstEnd(cmds, spawn, n, Trace([Event(cmds[0], spawn(n))] + rest.events, rest.ending))
  {
    var t := Trace([Event(cmds[0], spawn(n))] + rest.events, rest.ending);
    var k := |t.events|;
    assert k == 1 + |rest.events|;
    StepsFinishCons(cmds, spawn, n, k - 1);
    StepsFinishCons(cmds, spawn, n, |cmds|);
    if t.ending != Finished {
      var m := |rest.events| - 1;
      StepAtTail(cmds, spawn, n, m + 1);
    }
  }

  lemma StepAtTail(cmds: seq<Command>, spawn: Spawner, n: nat, i: nat)
    requires 1 <= i < |cmds|
    ensures StepAt(cmds, spawn, n, i) == StepAt(cmds[1..], spawn, n + 1, i - 1)
  {
    assert cmds[i] == cmds[1..][i - 1] && n + i == (n + 1) + (i - 1);
  }

  lemma StepsFinishCons(cmds: seq<Command>, spawn: Spawner, n: nat, k: nat)
    requires 1 <= |cmds| && k <= |cmds|
    requires StepAt(cmds, spawn, n, 0) == Finished
    ensures StepsFinish(cmds, spawn, n, k) <==> k == 0 || StepsFinish(cmds[1..], spawn, n + 1, k - 1)
  {
    var tail := cmds[1..];
    var next := n + 1;
    if k > 0 {
      if StepsFinish(tail, spawn, next, k - 1) {
        forall i: nat | i < k ensures StepAt(cmds, spawn, n, i) == Finished {
          if i > 0 {
            StepAtTail(cmds, spawn, n, i);
          }
        }
      }
      if StepsFinish(cmds, spawn, n, k) {
        forall i: nat | i < k - 1 ensures StepAt(tail, spawn, next, i) == Finished {
          StepAtTail(cmds, spawn, n, i + 1);
          assert StepAt(cmds, spawn, n, i + 1) == Finished;
        }
      }
    }
  }

  /** No command of `cmds` is a `docker stop` whose report would panic. */
  predicate NoPanics(cmds: seq<Command>) {
    forall i :: 0 <= i < |cmds| ==> cmds[i].DockerStop? ==> ShortId(cmds[i].container).Some?
  }

  /** Without panics a step goes on exactly when its command can be spawned. */
  lemma StepWithoutPanic(cmds: seq<Command>, spawn: Spawner, n: nat, i: nat)
    requires NoPanics(cmds) && i < |cmds|
    ensures StepAt(cmds, spawn, n, i) == if spawn(n + i).Exited? then Finished else IoError
  {
  }

  /** Without panics the first `m` steps go on exactly when their commands
      can all be spawned. */
  lemma StepsWithoutPanics(cmds: seq<Command>, spawn: Spawner, n: nat, m: nat)
    requires NoPanics(cmds) && m <= |cmds|
    ensures StepsFinish(cmds, spawn, n, m) <==> SpawnsBetween(spawn, n, n + m)
  {
    if StepsFinish(cmds, spawn, n, m) {
      forall k: nat | n <= k < n + m ensures spawn(k).Exited? {
        var i: nat := k - n;
        StepWithoutPanic(cmds, spawn, n, i);
        assert StepAt(cmds, spawn, n, i) == Finished;
      }
    }
    if SpawnsBetween(spawn, n, n + m) {
      forall i: nat | i < m ensures StepAt(cmds, spawn, n, i) == Finished {
        StepWithoutPanic(cmds, spawn, n, i);
        assert spawn(n + i).Exited?;
      }
    }
  }

  /** A run of commands that cannot panic finishes exactly when every command
      can be spawned, and otherwise returns the I/O error of its last command,
      every earlier one having been spawned. */
  lemma RunWithoutPanics(cmds: seq<Command>, spawn: Spawner, n: nat)
    requires NoPanics(cmds)
    ensures var t := Execute(cmds, spawn, n);
      t.ending == Finished <==> SpawnsBetween(spawn, n, n + |cmds|)
    ensures var t := Execute(cmds, spawn, n);
      t.ending == Finished ==> |t.events| == |cmds|
    ensures var t := Execute(cmds, spawn, n);
      t.ending != Finished ==>
        && t.ending == IoError
        && spawn(n + |t.events| - 1).SpawnFailed?
        && SpawnsBetween(spawn, n, n + |t.events| - 1)
  {
    var t := Execute(cmds, spawn, n);
    ExecuteEnding(cmds, spawn, n);
    EndWithoutPanics(cmds, spawn, n, t);
  }

  lemma EndWithoutPanics(cmds: seq<Command>, spawn: Spawner, n: nat, t: Trace)
    requires NoPanics(cmds) && StopsAtFirstEnd(cmds, spawn, n, t)
    ensures t.ending == Finished <==> SpawnsBetween(spawn, n, n + |cmds|)
    ensures t.ending == Finished ==> |t.events| == |cmds|
    ensures t.ending != Finished ==>
      && t.ending == IoError
      && spawn(n + |t.events| - 1).SpawnFailed?
      && SpawnsBetween(spawn, n, n + |t.events| - 1)
  {
    StepsWithoutPanics(cmds, spawn, n, |cmds|);
    if t.ending != Finished {
      var m := |t.events| - 1;
      assert StepsFinish(cmds, spawn, n, m);
      StepsWithoutPanics(cmds, spawn, n, m);
      StepWithoutPanic(cmds, spawn, n, m);
    }
  }

  /** While every command can be spawned, all of them are issued, whatever
      their exit statuses. */
  lemma ExecuteAll(cmds: seq<Command>, spawn: Spawner, n: nat)
    requires SpawnsBetween(spawn, n, n + |cmds|) && NoPanics(cmds)
    ensures Issued(Execute(cmds, spawn, n)) == cmds
    ensures Execute(cmds, spawn, n).ending == Finished
  {
    var t := Execute(cmds, spawn, n);
    RunWithoutPanics(cmds, spawn, n);
    assert |t.events| == |cmds|;
    assert forall i :: 0 <= i < |cmds| ==> Issued(t)[i] == cmds[i];
  }

  /** The run stops right after the first step that ends it, with that
      step's ending. */
  lemma StopsAt(cmds: seq<Command>, spawn: Spawner, n: nat, k: nat)
    requires k < |cmds| && StepsFinish(cmds, spawn, n, k)
    requires StepAt(cmds, spawn, n, k) != Finished
    ensures Issued(Execute(cmds, spawn, n)) == cmds[..k + 1]
    ensures Execute(cmds, spawn, n).ending == StepAt(cmds, spawn, n, k)
  {
    var t := Execute(cmds, spawn, n);
    ExecuteEnding(cmds, spawn, n);
    FirstEndIsUnique(cmds, spawn, n, k, t);
    assert forall i :: 0 <= i <= k ==> Issued(t)[i] == cmds[..k + 1][i];
  }

  /** A trace that stops at its first end stops at the first step that ends
      the run. */
  lemma FirstEndIsUnique(cmds: seq<Command>, spawn: Spawner, n: nat, k: nat, t: Trace)
    requires k < |cmds| && StepsFinish(cmds, spawn, n, k)
    requires StepAt(cmds, spawn, n, k) != Finished
    requires StopsAtFirstEnd(cmds, spawn, n, t)
    ensures |t.events| == k + 1 && t.ending == StepAt(cmds, spawn, n, k)
  {
    assert !StepsFinish(cmds, spawn, n, |cmds|);
    var m := |t.events| - 1;
    assert StepsFinish(cmds, spawn, n, m) && StepAt(cmds, spawn, n, m) != Finished;
    assert m == k;
  }

  /** The first command that cannot be spawned is the last one issued, and
      the run returns the I/O error. */
  lemma ExecuteStopsAtSpawnError(cmds: seq<Command>, spawn: Spawner, n: nat, k: nat)
    requires k < |cmds|
    requires SpawnsBetween(spawn, n, n + k) && NoPanics(cmds[..k])
    requires spawn(n + k).SpawnFailed?
    ensures Issued(Execute(cmds, spawn, n)) == cmds[..k + 1]
    ensures Execute(cmds, spawn, n).ending == IoError
  {
    assert StepsFinish(cmds, spawn, n, k) by {
      forall i: nat | i < k ensures StepAt(cmds, spawn, n, i) == Finished {
        assert spawn(n + i).Exited?;
        assert cmds[..k][i] == cmds[i];
      }
    }
    StopsAt(cmds, spawn, n, k);
  }
}

=== FILE: config.dfy ===
/** The settings read from `config.toml` (the reading itself is not modelled). */
module Config {
  import opened Ints

  datatype ShutdownConfig = ShutdownConfig(delayMinutes: u32, dockerStop: bool, unexportNfs: bool)

  datatype Config = Config(interface: string, port: u16, services: seq<string>, shutdown: ShutdownConfig)
}

=== FILE: hex.dfy ===
/**
 Rust's `u8::from_str_radix(s, 16)`, and the two-digit lower-case form in
 which the operating system prints each byte of a hardware address.
 */
module Hex {
  import opened Wrappers
  import opened Ints

  /** `char::to_digit(16)`: `0-9`, `a-f` and `A-F`, nothing else. */
  function DigitValue(c: char): (r: Option<nat>)
    ensures r.Some? ==> r.value < 16
  {
    if '0' <= c <= '9' then Some(c as int - '0' as int)
    else if 'a' <= c <= 'f' then Some(c as int - 'a' as int + 10)
    else if 'A' <= c <= 'F' then Some(c as int - 'A' as int + 10)
    else None
  }

  predicate AllHex(ds: string) {
    forall i :: 0 <= i < |ds| ==> DigitValue(ds[i]).Some?
  }

  /** The number a string of hex digits denotes, most significant digit first. */
  function HexValue(ds: string): nat
    requires AllHex(ds)
    decreases |ds|
  {
    if |ds| == 0 then 0
    else HexValue(ds[..|ds| - 1]) * 16 + DigitValue(ds[|ds| - 1]).value
  }

  /** The digits after the one leading `+` that an unsigned parse tolerates. */
  function Digits(s: string): string {
    if |s| > 0 && s[0] == '+' then s[1..] else s
  }

  /** What `from_str_radix(s, 16)` accepts for a `u8`: an optional `+`, then
      one or more hex digits of either case denoting at most 255. Leading
      zeros are fine; `""`, `"+"`, `"-1"` and `"100"` are not. */
  predicate IsHexByte(s: string) {
    var ds := Digits(s);
    |ds| > 0 && AllHex(ds) && HexValue(ds) <= 255
  }

  /** Rust's digit loop from position `i` with `acc` so far: each step is
      `acc * 16 + digit` and fails on a non-digit or on passing `u8::MAX`. */
  function Accumulate(ds: string, i: nat, acc: nat): (r: Option<nat>)
    requires i <= |ds| && acc <= 255
    ensures r.Some? ==> r.value <= 255
    decreases |ds| - i
  {
    if i == |ds| then Some(acc)
    else
      match DigitValue(ds[i])
      case None => None
      case Some(d) => if acc * 16 + d > 255 then None else Accumulate(ds, i + 1, acc * 16 + d)
  }

  /** `u8::from_str_radix(s, 16)` with its error collapsed to `None`. */
  function ParseHexByte(s: string): (r: Option<u8>)
    ensures r.Some? <==> IsHexByte(s)
    ensures r.Some? ==> r.value as int == HexValue(Digits(s))
  {
    var ds := Digits(s);
    if |ds| == 0 then None
    else
      assert ds[..0] == "";
      AccumulateMeaning(ds, 0, 0);
      var acc := Accumulate(ds, 0, 0);
      if acc.None? then None else Some(acc.value as u8)
  }

  /** A hex value never shrinks when digits are appended. */
  lemma {:induction false} HexValuePrefix(ds: string, j: nat)
    requires AllHex(ds) && j <= |ds|
    ensures AllHex(ds[..j]) && HexValue(ds[..j]) <= HexValue(ds)
    decreases |ds|
  {
    if j < |ds| {
      var init := ds[..|ds| - 1];
      HexValuePrefix(init, j);
      assert init[..j] == ds[..j];
    } else {
      assert ds[..j] == ds;
    }
  }

  /** The digit loop computes `HexValue` exactly when the whole string is
      hex and its value fits in a byte, and fails otherwise. */
  lemma {:induction false} AccumulateMeaning(ds: string, i: nat, acc: nat)
    requires i <= |ds| && acc <= 255
    requires AllHex(ds[..i]) && acc == HexValue(ds[..i])
    ensures Accumulate(ds, i, acc) ==
      if AllHex(ds) && HexValue(ds) <= 255 then Some(HexValue(ds)) else None
    decreases |ds| - i
  {
    if i == |ds| {
      assert ds[..i] == ds;
    } else {
      var next := ds[..i + 1];
      assert next[..i] == ds[..i];
      match DigitValue(ds[i])
      case None =>
        assert !AllHex(ds);
      case Some(d) =>
        assert AllHex(next);
        assert HexValue(next) == acc * 16 + d;
        if acc * 16 + d > 255 {
          if AllHex(ds) {
            HexValuePrefix(ds, i + 1);
          }
        } else {
          AccumulateMeaning(ds, i + 1, acc * 16 + d);
        }
    }
  }

  /** The lower-case hex character for a value below 16. */
  function HexChar(k: nat): (c: char)
    requires k < 16
    ensures DigitValue(c) == Some(k)
  {
    "0123456789abcdef"[k]
  }

  /** A byte as two lower-case hex digits (`%02x`). */
  function Hex2(b: u8): (s: string)
    ensures |s| == 2
  {
    [HexChar(b as nat / 16), HexChar(b as nat % 16)]
  }

  /** Two hex digits parse to the byte they spell. */
  lemma TwoDigits(s: string, hi: nat, lo: nat)
    requires |s| == 2 && DigitValue(s[0]) == Some(hi) && DigitValue(s[1]) == Some(lo)
    ensures hi * 16 + lo <= 255
    ensures ParseHexByte(s) == Some((hi * 16 + lo) as u8)
  {
    assert Digits(s) == s;
    assert s[..1][..0] == "";
    assert HexValue(s[..1]) == hi;
    assert s[..|s| - 1] == s[..1];
    assert HexValue(s) == hi * 16 + lo;
  }

  /** Reading back a printed byte yields the byte. */
  lemma ParseHex2(b: u8)
    ensures ParseHexByte(Hex2(b)) == Some(b)
  {
    TwoDigits(Hex2(b), b as nat / 16, b as nat % 16);
  }
}

=== FILE: ints.dfy ===
/** Rust's fixed-width unsigned integers, as ranges of mathematical integers. */
module Ints {
  newtype u8 = x: int | 0 <= x < 0x100
  newtype u16 = x: int | 0 <= x < 0x1_0000
  newtype u32 = x: int | 0 <= x < 0x1_0000_0000
}

=== FILE: listener.dfy ===
/**
 `run_wol_listener`: resolve the interface's address, bind, then handle one
 datagram at a time. The loop never ends on its own; the model runs it over
 the finite sequence of receive results seen so far.
 */
module Listener {
  import opened Wrappers
  import opened Ints
  import opened Commands
  import opened Config
  import opened MacAddress
  import opened MagicPacket
  import opened Activator

  /** One call of `recv_from`: a datagram, or an error from the socket. */
  datatype Received = Datagram(payload: seq<u8>) | RecvFailed

  /** Handles `inbox` in order with receive buffer `buf`, the next command
      spawned being the `n`-th. A matching datagram starts every service
      before the next datagram is looked at; a receive error or a start that
      cannot be spawned ends the listener. `Finished` only means that every
      result received so far was handled: the real loop never returns `Ok`
      and goes back to `recv_from` for the next datagram. */
  function Listen(mac: seq<u8>, services: seq<string>, inbox: seq<Received>,
                  buf: seq<u8>, spawn: Spawner, n: nat): (t: Trace)
    requires |buf| == BufferSize
    ensures forall i :: 0 <= i < |t.events| ==> t.events[i].command.SystemctlStart?
    ensures t.ending != Panicked
    decreases |inbox|
  {
    if |inbox| == 0 then Trace([], Finished)
    else match inbox[0]
      case RecvFailed => Trace([], IoError)
      case Datagram(payload) =>
        var (filled, amt) := Receive(buf, payload);
        if IsMagic(filled, amt, mac) then
          var woken := StartServices(services, spawn, n);
          if woken.ending != Finished then woken
          else
            var rest := Listen(mac, services, inbox[1..], filled, spawn, n + |services|);
            Trace(woken.events + rest.events, rest.ending)
        else Listen(mac, services, inbox[1..], filled, spawn, n)
  }

  /** Whether a receive result is a magic packet for `mac`. */
  predicate IsWake(mac: seq<u8>, r: Received) {
    r.Datagram? && IsMagicPayload(r.payload, mac)
  }

  /** How many payloads among `inbox` are magic packets for `mac`. */
  function Wakes(mac: seq<u8>, inbox: seq<Received>): (count: nat)
    ensures count <= |inbox|
    decreases |inbox|
  {
    if |inbox| == 0 then 0
    else
      var here := if IsWake(mac, inbox[0]) then 1 else 0;
      here + Wakes(mac, inbox[1..])
  }

  /** `k` full rounds of start requests, one round per wake. */
  function Rounds(services: seq<string>, k: nat): (cmds: seq<Command>)
    ensures |cmds| == k * |services|
  {
    if k == 0 then [] else StartRequests(services) + Rounds(services, k - 1)
  }

  predicate NoRecvErrors(inbox: seq<Received>) {
    forall i :: 0 <= i < |inbox| ==> inbox[i].Datagram?
  }

  /** When nothing fails, the listener starts the whole service list once
      for each magic packet addressed to it, and issues nothing else,
      whatever the receive buffer held before. */
  lemma {:induction false} ListenRestartsPerWake(mac: seq<u8>, services: seq<string>, inbox: seq<Received>,
                                    buf: seq<u8>, spawn: Spawner, n: nat)
    requires |buf| == BufferSize
    requires NoRecvErrors(inbox)
    requires SpawnsBetween(spawn, n, n + Wakes(mac, inbox) * |services|)
    ensures Issued(Listen(mac, services, inbox, buf, spawn, n)) == Rounds(services, Wakes(mac, inbox))
    ensures Listen(mac, services, inbox, buf, spawn, n).ending == Finished
    decreases |inbox|
  {
    if |inbox| > 0 {
      var tail := inbox[1..];
      assert NoRecvErrors(tail) by {
        forall i | 0 <= i < |tail| ensures tail[i].Datagram? {
          assert tail[i] == inbox[i + 1];
        }
      }
      var w := Wakes(mac, tail);
      var magic := IsWake(mac, inbox[0]);
      var next := if magic then n + |services| else n;
      assert Wakes(mac, inbox) == (if magic then 1 else 0) + w;
      Shift(n, |services|, w, magic);
      ListenRestartsPerWake(mac, services, tail, Receive(buf, inbox[0].payload).0, spawn, next);
      ListenStepRounds(mac, services, inbox, buf, spawn, n, w, Wakes(mac, inbox), Finished);
    }
  }

  lemma IssuedConcat(a: Trace, b: Trace)
    ensures Issued(Trace(a.events + b.events, b.ending)) == Issued(a) + Issued(b)
  {
    var t := Trace(a.events + b.events, b.ending);
    assert forall i :: |a.events| <= i < |t.events| ==> t.events[i] == b.events[i - |a.events|];
  }

  /** The inbox `clean + [r] + more` after its first entry, where `clean`
      is not empty and holds datagrams only. */
  lemma CleanTail(mac: seq<u8>, clean: seq<Received>, r: Received, more: seq<Received>)
    requires 0 < |clean| && NoRecvErrors(clean)
    ensures (clean + [r] + more)[0] == clean[0] && clean[0].Datagram?
    ensures (clean + [r] + more)[1..] == clean[1..] + [r] + more
    ensures NoRecvErrors(clean[1..])
    ensures Wakes(mac, clean) == (if IsWake(mac, clean[0]) then 1 else 0) + Wakes(mac, clean[1..])
  {
    var tail := clean[1..];
    forall i | 0 <= i < |tail| ensures tail[i].Datagram? {
      assert tail[i] == clean[i + 1];
    }
  }

  /** One datagram handled without error: when what follows it issues `w`
      rounds and then `after` and ends with `e`, the whole inbox issues one
      more round when the datagram is a magic packet, and ends the same way. */
  lemma ListenStep(mac: seq<u8>, services: seq<string>, inbox: seq<Received>,
                   buf: seq<u8>, spawn: Spawner, n: nat, w: nat, total: nat, after: seq<Command>, e: Ending)
    requires |buf| == BufferSize
    requires 0 < |inbox| && inbox[0].Datagram?
    requires IsWake(mac, inbox[0]) ==> SpawnsBetween(spawn, n, n + |services|)
    requires var rest := Listen(mac, services, inbox[1..], Receive(buf, inbox[0].payload).0, spawn,
                                if IsWake(mac, inbox[0]) then n + |services| else n);
      Issued(rest) == Rounds(services, w) + after && rest.ending == e
    requires total == (if IsWake(mac, inbox[0]) then 1 else 0) + w
    ensures Issued(Listen(mac, services, inbox, buf, spawn, n)) == Rounds(services, total) + after
    ensures Listen(mac, services, inbox, buf, spawn, n).ending == e
  {
    if IsWake(mac, inbox[0]) {
      WakeThenRest(mac, services, inbox, buf, spawn, n);
      OneMoreRound(services, w, after);
    } else {
      ReceivedMagic(buf, inbox[0].payload, mac);
    }
  }

  /** `ListenStep` when what follows the datagram issues whole rounds only. */
  lemma ListenStepRounds(mac: seq<u8>, services: seq<string>, inbox: seq<Received>,
                         buf: seq<u8>, spawn: Spawner, n: nat, w: nat, total: nat, e: Ending)
    requires |buf| == BufferSize
    requires 0 < |inbox| && inbox[0].Datagram?
    requires IsWake(mac, inbox[0]) ==> SpawnsBetween(spawn, n, n + |services|)
    requires var rest := Listen(mac, services, inbox[1..], Receive(buf, inbox[0].payload).0, spawn,
                                if IsWake(mac, inbox[0]) then n + |services| else n);
      Issued(rest) == Rounds(services, w) && rest.ending == e
    requires total == (if IsWake(mac, inbox[0]) then 1 else 0) + w
    ensures Issued(Listen(mac, services, inbox, buf, spawn, n)) == Rounds(services, total)
    ensures Listen(mac, services, inbox, buf, spawn, n).ending == e
  {
    NothingAfter(Rounds(services, w));
    ListenStep(mac, services, inbox, buf, spawn, n, w, total, [], e);
    NothingAfter(Rounds(services, total));
  }

  lemma OneMoreRound(services: seq<string>, w: nat, after: seq<Command>)
    ensures Rounds(services, 1 + w) + after == StartRequests(services) + (Rounds(services, w) + after)
  {
    var round := StartRequests(services);
    var more := Rounds(services, w);
    assert Rounds(services, 1 + w) == round + more;
    assert (round + more) + after == round + (more + after);
  }

  /** A magic datagram first in the inbox, whose round of starts all spawn:
      the listener issues that round and then handles the rest of the inbox
      with the filled buffer. */
  lemma WakeThenRest(mac: seq<u8>, services: seq<string>, inbox: seq<Received>,
                     buf: seq<u8>, spawn: Spawner, n: nat)
    requires |buf| == BufferSize
    requires 0 < |inbox| && IsWake(mac, inbox[0])
    requires SpawnsBetween(spawn, n, n + |services|)
    ensures var rest := Listen(mac, services, inbox[1..], Receive(buf, inbox[0].payload).0, spawn, n + |services|);
      && Issued(Listen(mac, services, inbox, buf, spawn, n)) == StartRequests(services) + Issued(rest)
      && Listen(mac, services, inbox, buf, spawn, n).ending == rest.ending
  {
    var (filled, amt) := Receive(buf, inbox[0].payload);
    ReceivedMagic(buf, inbox[0].payload, mac);
    StatusDoesNotStop(services, spawn, n);
    var woken := StartServices(services, spawn, n);
    var rest := Listen(mac, services, inbox[1..], filled, spawn, n + |services|);
    assert Listen(mac, services, inbox, buf, spawn, n) == Trace(woken.events + rest.events, rest.ending);
    IssuedConcat(woken, rest);
  }

  lemma NothingAfter(cmds: seq<Command>)
    ensures cmds + [] == cmds
  {
  }

  /** Counting an optional first wake of `size` commands. */
  lemma Shift(n: nat, size: nat, w: nat, first: bool)
    ensures n + ((if first then 1 else 0) + w) * size == (if first then n + size else n) + w * size
  {
    if first {
      assert (1 + w) * size == size + w * size;
    }
  }

  /** A receive error first in the inbox ends the listener before anything
      is issued. */
  lemma RecvErrorFirst(mac: seq<u8>, services: seq<string>, inbox: seq<Received>,
                       buf: seq<u8>, spawn: Spawner, n: nat)
    requires |buf| == BufferSize
    requires 0 < |inbox| && inbox[0].RecvFailed?
    ensures Issued(Listen(mac, services, inbox, buf, spawn, n)) == Rounds(services, 0)
    ensures Listen(mac, services, inbox, buf, spawn, n).ending == IoError
  {
    assert Listen(mac, services, inbox, buf, spawn, n) == Trace([], IoError);
  }

  /** A receive error ends the listener with that error: what it issued is
      one round per magic packet in the datagrams `clean` received before the
      error, and nothing received later, in `more`, is looked at. */
  lemma {:induction false} ListenStopsAtRecvError(mac: seq<u8>, services: seq<string>, clean: seq<Received>,
                                                  more: seq<Received>, buf: seq<u8>, spawn: Spawner, n: nat)
    requires |buf| == BufferSize
    requires NoRecvErrors(clean)
    requires SpawnsBetween(spawn, n, n + Wakes(mac, clean) * |services|)
    ensures Issued(Listen(mac, services, clean + [RecvFailed] + more, buf, spawn, n)) == Rounds(services, Wakes(mac, clean))
    ensures Listen(mac, services, clean + [RecvFailed] + more, buf, spawn, n).ending == IoError
    decreases |clean|
  {
    var inbox := clean + [RecvFailed] + more;
    if |clean| == 0 {
      assert inbox[0] == RecvFailed;
      RecvErrorFirst(mac, services, inbox, buf, spawn, n);
    } else {
      var next := BeforeRest(mac, services, clean, RecvFailed, more, spawn, n, 0);
      ListenStopsAtRecvError(mac, services, clean[1..], more, Receive(buf, clean[0].payload).0, spawn, next);
      ListenStepRounds(mac, services, inbox, buf, spawn, n, Wakes(mac, clean[1..]), Wakes(mac, clean), IoError);
    }
  }

  /** Handling the first of the datagrams `clean` that precede `r`: the
      number `next` of the command spawned after it, and what that leaves
      for the rest of the inbox. */
  lemma BeforeRest(mac: seq<u8>, services: seq<string>, clean: seq<Received>, r: Received,
                   more: seq<Received>, spawn: Spawner, n: nat, k: nat) returns (next: nat)
    requires 0 < |clean| && NoRecvErrors(clean)
    requires SpawnsBetween(spawn, n, n + Wakes(mac, clean) * |services| + k)
    ensures clean[0].Datagram? && NoRecvErrors(clean[1..])
    ensures next == if IsWake(mac, clean[0]) then n + |services| else n
    ensures n + Wakes(mac, clean) * |services| + k == next + Wakes(mac, clean[1..]) * |services| + k
    ensures SpawnsBetween(spawn, next, next + Wakes(mac, clean[1..]) * |services| + k)
    ensures IsWake(mac, clean[0]) ==> SpawnsBetween(spawn, n, n + |services|)
    ensures var inbox := clean + [r] + more;
      0 < |inbox| && inbox[0] == clean[0] && inbox[1..] == clean[1..] + [r] + more
    ensures Wakes(mac, clean) == (if IsWake(mac, clean[0]) then 1 else 0) + Wakes(mac, clean[1..])
  {
    CleanTail(mac, clean, r, more);
    var magic := IsWake(mac, clean[0]);
    next := if magic then n + |services| else n;
    Shift(n, |services|, Wakes(mac, clean[1..]), magic);
  }

  /** A magic datagram first in the inbox whose `k`-th start cannot be
      spawned: services 0..k are started and the listener returns the error. */
  lemma FirstWakeFails(mac: seq<u8>, services: seq<string>, inbox: seq<Received>,
                       buf: seq<u8>, spawn: Spawner, n: nat, k: nat)
    requires |buf| == BufferSize
    requires 0 < |inbox| && IsWake(mac, inbox[0])
    requires k < |services|
    requires SpawnsBetween(spawn, n, n + k)
    requires spawn(n + k).SpawnFailed?
    ensures Issued(Listen(mac, services, inbox, buf, spawn, n)) == StartRequests(services[..k + 1])
    ensures Listen(mac, services, inbox, buf, spawn, n).ending == IoError
  {
    ReceivedMagic(buf, inbox[0].payload, mac);
    SpawnErrorAborts(services, spawn, n, k);
  }

  /** A start that cannot be spawned ends the listener with that error: the
      rounds for the magic packets among the datagrams `clean` are issued in
      full, the round for the magic packet `payload` after them stops at its
      `k`-th service, and nothing received later, in `more`, is looked at. */
  lemma {:induction false} ListenStopsAtSpawnError(mac: seq<u8>, services: seq<string>, clean: seq<Received>,
                                                   payload: seq<u8>, more: seq<Received>,
                                                   buf: seq<u8>, spawn: Spawner, n: nat, k: nat)
    requires |buf| == BufferSize
    requires NoRecvErrors(clean) && IsMagicPayload(payload, mac)
    requires k < |services|
    requires SpawnsBetween(spawn, n, n + Wakes(mac, clean) * |services| + k)
    requires spawn(n + Wakes(mac, clean) * |services| + k).SpawnFailed?
    ensures Issued(Listen(mac, services, clean + [Datagram(payload)] + more, buf, spawn, n))
      == Rounds(services, Wakes(mac, clean)) + StartRequests(services[..k + 1])
    ensures Listen(mac, services, clean + [Datagram(payload)] + more, buf, spawn, n).ending == IoError
    decreases |clean|
  {
    var inbox := clean + [Datagram(payload)] + more;
    var last := StartRequests(services[..k + 1]);
    if |clean| == 0 {
      assert inbox[0] == Datagram(payload);
      FirstWakeFails(mac, services, inbox, buf, spawn, n, k);
      NoRoundBefore(services, last);
    } else {
      var next := BeforeRest(mac, services, clean, Datagram(payload), more, spawn, n, k);
      ListenStopsAtSpawnError(mac, services, clean[1..], payload, more, Receive(buf, clean[0].payload).0, spawn, next, k);
      ListenStep(mac, services, inbox, buf, spawn, n, Wakes(mac, clean[1..]), Wakes(mac, clean), last, IoError);
    }
  }

  lemma NoRoundBefore(services: seq<string>, cmds: seq<Command>)
    ensures Rounds(services, 0) + cmds == cmds
  {
  }

  /** The buffer the listener starts with: `[0; 1024]`. */
  function ZeroBuffer(): (buf: seq<u8>)
    ensures |buf| == BufferSize
  {
    seq(BufferSize, _ => 0)
  }

  /** The whole listener: the address file's contents (`None` when it cannot
      be read) are resolved first and a failure there panics; then a failed
      bind returns its error; then datagrams are handled from a zeroed buffer. */
  function RunListener(config: Config, addressFile: Option<string>, bound: bool,
                       inbox: seq<Received>, spawn: Spawner): (t: Trace)
    ensures (addressFile.None? || ParseMac(addressFile.value).None?) ==> t == Trace([], Panicked)
    ensures addressFile.Some? && ParseMac(addressFile.value).Some? && !bound ==> t == Trace([], IoError)
  {
    match addressFile
    case None => Trace([], Panicked)
    case Some(text) =>
      match ParseMac(text)
      case None => Trace([], Panicked)
      case Some(mac) =>
        if !bound then Trace([], IoError)
        else Listen(mac, config.services, inbox, ZeroBuffer(), spawn, 0)
  }

  /** The whole listener, once the address file parses and the bind
      succeeds: with no receive or spawn errors it starts the full service
      list once per magic packet for the resolved address, in order, and
      issues nothing else. */
  lemma RunListenerRestartsPerWake(config: Config, text: string, mac: seq<u8>, inbox: seq<Received>, spawn: Spawner)
    requires NoRecvErrors(inbox) && SpawnsBetween(spawn, 0, Wakes(mac, inbox) * |config.services|)
    requires ParseMac(text) == Some(mac)
    ensures Issued(RunListener(config, Some(text), true, inbox, spawn)) == Rounds(config.services, Wakes(mac, inbox))
    ensures RunListener(config, Some(text), true, inbox, spawn).ending == Finished
  {
    ListenRestartsPerWake(mac, config.services, inbox, ZeroBuffer(), spawn, 0);
  }

  /** End to end: the interface's address file holds some address (such as
      01:02:03:04:05:06) and one 102-byte datagram arrives holding six `0xFF`,
      the address once, and 90 zero bytes; every service is then started
      once, in order. */
  lemma WakeEndToEnd(config: Config, spawn: Spawner, mac: seq<u8>, packet: seq<u8>)
    requires forall k: nat :: spawn(k).Exited?
    requires |mac| == 6
    requires packet == Header + mac + seq(90, _ => 0)
    ensures Issued(RunListener(config, Some(AddressFileText(mac)), true, [Datagram(packet)], spawn))
      == StartRequests(config.services)
  {
    ParseAddressFile(mac);
    PaddedPacketIsMagic(mac, packet);
    assert RunListener(config, Some(AddressFileText(mac)), true, [Datagram(packet)], spawn)
      == Listen(mac, config.services, [Datagram(packet)], ZeroBuffer(), spawn, 0);
    SingleWake(config.services, mac, packet, spawn);
  }

  lemma PaddedPacketIsMagic(mac: seq<u8>, packet: seq<u8>)
    requires |mac| == 6
    requires packet == Header + mac + seq(90, _ => 0)
    ensures IsMagicPayload(packet, mac)
  {
    assert |packet| == MinLength;
    assert packet[0..6] == Header;
    assert packet[6..12] == mac;
  }

  lemma SingleWake(services: seq<string>, mac: seq<u8>, packet: seq<u8>, spawn: Spawner)
    requires forall k: nat :: spawn(k).Exited?
    requires IsMagicPayload(packet, mac)
    ensures Issued(Listen(mac, services, [Datagram(packet)], ZeroBuffer(), spawn, 0))
      == StartRequests(services)
  {
    var inbox := [Datagram(packet)];
    assert Wakes(mac, inbox) == 1 by {
      assert inbox[1..] == [];
    }
    ListenRestartsPerWake(mac, services, inbox, ZeroBuffer(), spawn, 0);
    assert Rounds(services, 1) == StartRequests(services) + [];
  }
}

=== FILE: mac_address.dfy ===
/**
 The string half of `get_mac_address`: the contents of the interface's
 `address` file turned into a six-byte hardware address.
 */
module MacAddress {
  import opened Wrappers
  import opened Ints
  import opened Text
  import opened Hex

  /** The colon-separated pieces of the trimmed address text. */
  function Segments(text: string): seq<string> {
    Split(Trim(text), ':')
  }

  /** The byte one segment contributes: its base-16 value, or 0 when the
      segment is not a valid `u8` (the `unwrap_or(0)` silent degrade). */
  function SegmentByte(seg: string): (b: u8)
    ensures IsHexByte(seg) ==> b as int == HexValue(Digits(seg))
    ensures !IsHexByte(seg) ==> b == 0
  {
    ParseHexByte(seg).GetOr(0)
  }

  /** The bytes of a list of segments, one per segment. */
  function SegmentBytes(segs: seq<string>): (bytes: seq<u8>)
    ensures |bytes| == |segs|
    ensures forall i :: 0 <= i < |segs| ==> bytes[i] == SegmentByte(segs[i])
  {
    seq(|segs|, i requires 0 <= i < |segs| => SegmentByte(segs[i]))
  }

  /** An address exactly when the trimmed text has six colon-separated
      segments; each segment gives its byte, unparseable ones giving 0. */
  function ParseMac(text: string): (r: Option<seq<u8>>)
    ensures r.Some? <==> |Segments(text)| == 6
    ensures r.Some? ==> |r.value| == 6
    ensures r.Some? ==> forall i :: 0 <= i < 6 ==>
      r.value[i] == (if IsHexByte(Segments(text)[i]) then HexValue(Digits(Segments(text)[i])) as u8 else 0)
  {
    var segs := Segments(text);
    if |segs| == 6 then Some(SegmentBytes(segs)) else None
  }

  /** The segments of an address as the operating system writes it. */
  function PrintedSegments(mac: seq<u8>): (segs: seq<string>)
    ensures |segs| == |mac|
  {
    seq(|mac|, i requires 0 <= i < |mac| => Hex2(mac[i]))
  }

  /** The `address` file's text: lower-case `xx:xx:xx:xx:xx:xx` and a newline. */
  function AddressFileText(mac: seq<u8>): string {
    Join(PrintedSegments(mac), ':') + "\n"
  }

  lemma PrintedSegmentsShape(mac: seq<u8>)
    ensures Separated(PrintedSegments(mac), ':')
    ensures forall i :: 0 <= i < |mac| ==> NoWhitespace(PrintedSegments(mac)[i])
  {
    var segs := PrintedSegments(mac);
    forall i | 0 <= i < |mac|
      ensures ':' !in segs[i] && NoWhitespace(segs[i])
    {
      var h := Hex2(mac[i]);
      assert DigitValue(h[0]).Some? && DigitValue(h[1]).Some?;
    }
  }

  /** Round trip: parsing the text the operating system prints for an
      address gives that address back. */
  lemma ParseAddressFile(mac: seq<u8>)
    requires |mac| == 6
    ensures ParseMac(AddressFileText(mac)) == Some(mac)
  {
    var segs := PrintedSegments(mac);
    PrintedSegmentsShape(mac);
    JoinNoWhitespace(segs, ':');
    assert AllWhitespace("\n");
    ParseMacOfSegments(segs, "\n");
    PrintedBytes(mac);
  }

  /** Each printed segment reads back as its byte. */
  lemma PrintedBytes(mac: seq<u8>)
    ensures SegmentBytes(PrintedSegments(mac)) == mac
  {
    var segs := PrintedSegments(mac);
    var bytes := SegmentBytes(segs);
    forall i | 0 <= i < |mac| ensures bytes[i] == mac[i] {
      ParseHex2(mac[i]);
      assert segs[i] == Hex2(mac[i]);
    }
  }

  /** Text made of six colon-free, whitespace-free segments joined with `:`
      (and followed by whitespace, such as the newline of the file) parses
      to the bytes of those segments: a segment that is not a valid `u8`
      gives 0 instead of failing the parse. */
  lemma ParseMacOfSegments(segs: seq<string>, post: string)
    requires |segs| == 6 && Separated(segs, ':')
    requires NoWhitespace(Join(segs, ':')) && AllWhitespace(post)
    ensures ParseMac(Join(segs, ':') + post) == Some(SegmentBytes(segs))
    ensures forall i :: 0 <= i < 6 && !IsHexByte(segs[i]) ==> SegmentBytes(segs)[i] == 0
  {
    var joined := Join(segs, ':');
    assert Tight(joined);
    TrimPadded("", joined, post);
    assert "" + joined + post == joined + post;
    SplitJoin(segs, ':');
  }

  /** A segment ending in a non-hex character, such as `zz`, gives 0. */
  lemma MalformedSegment(seg: string)
    requires |seg| > 0 && DigitValue(seg[|seg| - 1]).None?
    ensures SegmentByte(seg) == 0
  {
    var ds := Digits(seg);
    if |ds| > 0 {
      assert ds[|ds| - 1] == seg[|seg| - 1];
    }
    assert !IsHexByte(seg);
  }

  /** Two hex digits of either case give the byte they spell. */
  lemma TwoDigitSegment(seg: string, hi: nat, lo: nat)
    requires |seg| == 2 && DigitValue(seg[0]) == Some(hi) && DigitValue(seg[1]) == Some(lo)
    ensures SegmentByte(seg) as int == hi * 16 + lo
  {
    TwoDigits(seg, hi, lo);
  }

  /** Empty text is one empty segment, so it is not an address. */
  lemma ParseMacEmpty()
    ensures ParseMac("") == None
  {
    TrimTight("");
    assert |Split("", ':')| == 1;
  }
}

=== FILE: magic_packet.dfy ===
/**
 The magic-packet test of the receive loop, and the receive step that fills
 the reused 1024-byte buffer it inspects.
 */
module MagicPacket {
  import opened Ints

  /** Size of the receive buffer, reused for every datagram. */
  const BufferSize: nat := 1024

  /** Shortest payload the listener accepts: 6 + 16 * 6 bytes. */
  const MinLength: nat := 102

  /** The synchronisation stream: six `0xFF` bytes. */
  const Header: seq<u8> := [0xFF, 0xFF, 0xFF, 0xFF, 0xFF, 0xFF]

  /** The check the listener applies to the first `amt` bytes of `buf`: at
      least 102 bytes arrived, bytes 0..6 are `0xFF` and bytes 6..12 are the
      interface's address. Nothing past byte 12 is looked at. */
  function IsMagic(buf: seq<u8>, amt: nat, mac: seq<u8>): (r: bool)
    requires amt <= |buf|
    ensures r <==>
      && amt >= MinLength
      && |mac| == 6
      && (forall i :: 0 <= i < 6 ==> buf[i] == 0xFF)
      && (forall i :: 0 <= i < 6 ==> buf[6 + i] == mac[i])
  {
    if amt < MinLength then false
    else
      var bytewise := |mac| == 6 && (forall i :: 0 <= i < 6 ==> buf[i] == 0xFF)
                      && (forall i :: 0 <= i < 6 ==> buf[6 + i] == mac[i]);
      assert bytewise ==> buf[0..6] == Header && buf[6..12] == mac;
      buf[0..6] == Header && buf[6..12] == mac
  }

  /** The same check stated on the datagram itself. */
  predicate IsMagicPayload(payload: seq<u8>, mac: seq<u8>) {
    |payload| >= MinLength && payload[0..6] == Header && payload[6..12] == mac
  }

  /** The full magic packet of the Wake-on-LAN format: the header followed
      by sixteen copies of the address. */
  predicate IsCanonicalMagic(payload: seq<u8>, mac: seq<u8>) {
    && |mac| == 6
    && |payload| >= MinLength
    && payload[0..6] == Header
    && forall k :: 6 <= k < MinLength ==> payload[k] == mac[(k - 6) % 6]
  }

  /** `recv_from` into `buf`: the datagram's bytes overwrite the front of the
      buffer (a datagram longer than the buffer is cut to fit), the rest of
      the buffer keeps what earlier datagrams left there, and the count
      returned is the number of bytes written. */
  function Receive(buf: seq<u8>, datagram: seq<u8>): (r: (seq<u8>, nat))
    ensures r.1 <= |buf| && r.1 <= |datagram| && |r.0| == |buf|
    ensures r.1 == |buf| || r.1 == |datagram|
    ensures r.0[..r.1] == datagram[..r.1]
    ensures r.0[r.1..] == buf[r.1..]
  {
    var amt := if |datagram| < |buf| then |datagram| else |buf|;
    (datagram[..amt] + buf[amt..], amt)
  }

  /** A datagram shorter than 102 bytes is never a match, whatever the buffer holds. */
  lemma ShortIsNotMagic(buf: seq<u8>, amt: nat, mac: seq<u8>)
    requires amt <= |buf| && amt < MinLength
    ensures !IsMagic(buf, amt, mac)
  {
  }

  /** Bytes from index 12 on never affect the outcome: two buffers that
      agree on their first 12 bytes give the same answer. */
  lemma OnlyFirstTwelveBytesRead(buf: seq<u8>, other: seq<u8>, amt: nat, mac: seq<u8>)
    requires amt <= |buf| && amt <= |other|
    requires amt >= 12 ==> buf[..12] == other[..12]
    ensures IsMagic(buf, amt, mac) == IsMagic(other, amt, mac)
  {
    if amt >= MinLength {
      assert buf[0..6] == buf[..12][0..6] == other[..12][0..6] == other[0..6];
      assert buf[6..12] == buf[..12][6..12] == other[..12][6..12] == other[6..12];
    }
  }

  /** In particular the sixteen address copies are not checked: overwriting
      any byte from index 12 on keeps the answer. */
  lemma TrailingByteIgnored(buf: seq<u8>, amt: nat, mac: seq<u8>, k: nat, v: u8)
    requires amt <= |buf| && 12 <= k < |buf|
    ensures IsMagic(buf[k := v], amt, mac) == IsMagic(buf, amt, mac)
  {
    if amt >= 12 {
      assert buf[k := v][..12] == buf[..12];
    }
    OnlyFirstTwelveBytesRead(buf[k := v], buf, amt, mac);
  }

  /** Changing any one of the first 12 bytes of a match breaks it. */
  lemma HeaderOrAddressByteMatters(buf: seq<u8>, amt: nat, mac: seq<u8>, k: nat, v: u8)
    requires amt <= |buf| && IsMagic(buf, amt, mac)
    requires k < 12 && v != buf[k]
    ensures !IsMagic(buf[k := v], amt, mac)
  {
    var b := buf[k := v];
    if k < 6 {
      assert b[0..6][k] == v != 0xFF;
    } else {
      assert b[6..12][k - 6] == v != mac[k - 6];
    }
  }

  /** What the check decides about the buffer after a receive is decided by
      the datagram alone: stale bytes from earlier datagrams never matter. */
  lemma ReceivedMagic(buf: seq<u8>, datagram: seq<u8>, mac: seq<u8>)
    requires |buf| == BufferSize
    ensures var (filled, amt) := Receive(buf, datagram);
      IsMagic(filled, amt, mac) == IsMagicPayload(datagram, mac)
  {
    var (filled, amt) := Receive(buf, datagram);
    if amt >= MinLength {
      assert filled[..amt][0..6] == filled[0..6];
      assert filled[..amt][6..12] == filled[6..12];
      assert datagram[..amt][0..6] == datagram[0..6];
      assert datagram[..amt][6..12] == datagram[6..12];
    } else {
      assert |datagram| < MinLength;
    }
  }

  /** Every Wake-on-LAN magic packet for the address is accepted. */
  lemma CanonicalIsMagic(payload: seq<u8>, mac: seq<u8>)
    requires IsCanonicalMagic(payload, mac)
    ensures IsMagicPayload(payload, mac)
  {
    forall i | 0 <= i < 6 ensures payload[6..12][i] == mac[i] {
      assert payload[6 + i] == mac[(6 + i - 6) % 6];
    }
  }

  /** The header and one copy of the address followed by filler: accepted
      although it is not a Wake-on-LAN magic packet. */
  function RelaxedPacket(mac: seq<u8>): (p: seq<u8>)
    requires |mac| == 6
    ensures |p| == MinLength
  {
    var filler: u8 := if mac[0] == 0 then 1 else 0;
    Header + mac + seq(MinLength - 12, _ => filler)
  }

  /** The check is strictly weaker than the packet format it is named after. */
  lemma RelaxedPacketAccepted(mac: seq<u8>)
    requires |mac| == 6
    ensures IsMagicPayload(RelaxedPacket(mac), mac)
    ensures !IsCanonicalMagic(RelaxedPacket(mac), mac)
  {
    var p := RelaxedPacket(mac);
    assert p[0..6] == Header;
    assert p[6..12] == mac;
    assert p[12] != mac[(12 - 6) % 6];
  }
}

=== FILE: shutdown.dfy ===
/**
 `run_shutdown`: schedule the power-off, optionally stop every running
 container, stop the configured services, optionally unexport the NFS
 shares, and flush the caches.
 */
module Shutdown {
  import opened Text
  import opened Commands
  import opened Config

  /** The container ids in the output of `docker ps -q`: the trimmed output,
      nothing when it is blank, otherwise one id per line. */
  function ContainerIds(stdout: string): (ids: seq<string>)
    ensures forall i :: 0 <= i < |ids| ==> '\n' !in ids[i]
    ensures AllWhitespace(stdout) ==> ids == []
  {
    var t := Trim(stdout);
    if |t| == 0 then [] else Lines(t)
  }

  /** What `docker ps -q` prints for the running containers `ids`. */
  function PsOutput(ids: seq<string>): string {
    if |ids| == 0 then "" else Join(ids, '\n') + "\n"
  }

  predicate ValidIds(ids: seq<string>) {
    forall i :: 0 <= i < |ids| ==> |ids[i]| > 0 && NoWhitespace(ids[i])
  }

  /** Reading the ids back out of the listing gives the listed ids, in order. */
  lemma ContainerIdsOfPsOutput(ids: seq<string>)
    requires ValidIds(ids)
    ensures ContainerIds(PsOutput(ids)) == ids
  {
    if |ids| > 0 {
      TrimPsOutput(ids);
      IdsHaveNoBreaks(ids);
      LinesOfJoin(ids);
    }
  }

  lemma TrimPsOutput(ids: seq<string>)
    requires |ids| > 0 && ValidIds(ids)
    ensures Trim(PsOutput(ids)) == Join(ids, '\n')
    ensures |Join(ids, '\n')| > 0
  {
    var joined := Join(ids, '\n');
    assert !IsWhitespace(ids[0][0]);
    var last := ids[|ids| - 1];
    assert !IsWhitespace(last[|last| - 1]);
    JoinTight(ids, '\n');
    assert AllWhitespace("\n");
    TrimPadded("", joined, "\n");
    assert "" + joined + "\n" == PsOutput(ids);
    JoinCut(ids, '\n');
    if |ids| >= 2 {
      assert |joined| > |ids[0]|;
    }
  }

  lemma IdsHaveNoBreaks(ids: seq<string>)
    requires |ids| > 0 && ValidIds(ids)
    ensures |ids[|ids| - 1]| > 0
    ensures forall i :: 0 <= i < |ids| ==> '\n' !in ids[i] && '\r' !in ids[i]
  {
    forall i | 0 <= i < |ids| ensures '\n' !in ids[i] && '\r' !in ids[i] {
      assert NoWhitespace(ids[i]);
    }
  }

  function StopContainers(ids: seq<string>): (cmds: seq<Command>)
    ensures |cmds| == |ids|
    ensures forall i :: 0 <= i < |ids| ==> cmds[i] == DockerStop(ids[i])
  {
    seq(|ids|, i requires 0 <= i < |ids| => DockerStop(ids[i]))
  }

  function StopServices(services: seq<string>): (cmds: seq<Command>)
    ensures |cmds| == |services|
    ensures forall i :: 0 <= i < |services| ==> cmds[i] == SystemctlStop(services[i])
  {
    seq(|services|, i requires 0 <= i < |services| => SystemctlStop(services[i]))
  }

  /** The step of the sequence a command belongs to. */
  function Phase(c: Command): nat {
    match c
    case ScheduleShutdown(_) => 0
    case DockerPs => 1
    case DockerStop(_) => 2
    case SystemctlStop(_) => 3
    case UnexportAll => 4
    case Sync => 5
    case SystemctlStart(_) => 6
  }

  predicate InPhaseOrder(cmds: seq<Command>) {
    forall i, j :: 0 <= i < j < |cmds| ==> Phase(cmds[i]) <= Phase(cmds[j])
  }

  predicate PhasesIn(cmds: seq<Command>, lo: nat, hi: nat) {
    forall i :: 0 <= i < |cmds| ==> lo <= Phase(cmds[i]) <= hi
  }

  lemma OrderedConcat(a: seq<Command>, b: seq<Command>, p: nat)
    requires InPhaseOrder(a) && InPhaseOrder(b)
    requires PhasesIn(a, 0, p) && PhasesIn(b, p, 6)
    ensures InPhaseOrder(a + b)
  {
    var c := a + b;
    forall i, j | 0 <= i < j < |c| ensures Phase(c[i]) <= Phase(c[j]) {
      if j < |a| {
        assert c[i] == a[i] && c[j] == a[j];
      } else if i >= |a| {
        assert c[i] == b[i - |a|] && c[j] == b[j - |a|];
      } else {
        assert c[i] == a[i] && c[j] == b[j - |a|];
      }
    }
  }

  /** The argument names of the commands of one kind, in order: the containers
      stopped, or the services stopped. */
  datatype Kind = Containers | Services

  function Target(c: Command, kind: Kind): seq<string> {
    match kind
    case Containers => if c.DockerStop? then [c.container] else []
    case Services => if c.SystemctlStop? then [c.unit] else []
  }

  function Targets(cmds: seq<Command>, kind: Kind): seq<string>
    decreases |cmds|
  {
    if |cmds| == 0 then [] else Target(cmds[0], kind) + Targets(cmds[1..], kind)
  }

  lemma {:induction false} TargetsConcat(a: seq<Command>, b: seq<Command>, kind: Kind)
    ensures Targets(a + b, kind) == Targets(a, kind) + Targets(b, kind)
    decreases |a|
  {
    if |a| > 0 {
      assert (a + b)[1..] == a[1..] + b;
      TargetsConcat(a[1..], b, kind);
    } else {
      assert a + b == b;
    }
  }

  lemma {:induction false} TargetsOfStops(names: seq<string>)
    ensures Targets(StopContainers(names), Containers) == names
    ensures Targets(StopContainers(names), Services) == []
    ensures Targets(StopServices(names), Services) == names
    ensures Targets(StopServices(names), Containers) == []
    decreases |names|
  {
    if |names| > 0 {
      TargetsOfStops(names[1..]);
      assert StopContainers(names)[1..] == StopContainers(names[1..]);
      assert StopServices(names)[1..] == StopServices(names[1..]);
      assert names == [names[0]] + names[1..];
    }
  }

  lemma TargetsOfOthers(cmds: seq<Command>, kind: Kind)
    requires forall i :: 0 <= i < |cmds| ==> !cmds[i].DockerStop? && !cmds[i].SystemctlStop?
    requires |cmds| <= 1
    ensures Targets(cmds, kind) == []
  {
    if |cmds| == 1 {
      assert cmds[1..] == [];
      assert Target(cmds[0], kind) == [];
    }
  }

  /** The commands `run_shutdown` issues when nothing goes wrong, given what
      `docker ps -q` prints: `shutdown +<delay>` first and `sync` last; in
      between `docker ps` and one `docker stop` per listed container, in order,
      only with `docker_stop`; one `systemctl stop` per service, in order;
      `exportfs -au` only with `unexport_nfs`. */
  function ShutdownPlan(config: Config, psStdout: string): (plan: seq<Command>)
    ensures |plan| >= 2
    ensures plan[0] == ScheduleShutdown(config.shutdown.delayMinutes)
    ensures plan[|plan| - 1] == Sync
    ensures DockerPs in plan <==> config.shutdown.dockerStop
    ensures UnexportAll in plan <==> config.shutdown.unexportNfs
    ensures Targets(plan, Containers) == if config.shutdown.dockerStop then ContainerIds(psStdout) else []
    ensures Targets(plan, Services) == config.services
    ensures InPhaseOrder(plan)
    ensures |plan| == 2 + |config.services|
      + (if config.shutdown.dockerStop then 1 + |ContainerIds(psStdout)| else 0)
      + (if config.shutdown.unexportNfs then 1 else 0)
  {
    var schedule := [ScheduleShutdown(config.shutdown.delayMinutes)];
    var docker := if config.shutdown.dockerStop then [DockerPs] + StopContainers(ContainerIds(psStdout)) else [];
    var services := StopServices(config.services);
    var nfs := if config.shutdown.unexportNfs then [UnexportAll] else [];
    PlanFacts(schedule, docker, services, nfs, config.shutdown.dockerStop, config.shutdown.unexportNfs,
              ContainerIds(psStdout), config.services);
    schedule + docker + services + nfs + [Sync]
  }

  lemma PlanFacts(schedule: seq<Command>, docker: seq<Command>, services: seq<Command>,
                  nfs: seq<Command>, dockerStop: bool, unexport: bool, ids: seq<string>, names: seq<string>)
    requires |schedule| == 1 && schedule[0].ScheduleShutdown?
    requires docker == if dockerStop then [DockerPs] + StopContainers(ids) else []
    requires services == StopServices(names)
    requires nfs == if unexport then [UnexportAll] else []
    ensures var plan := schedule + docker + services + nfs + [Sync];
      && (DockerPs in plan <==> dockerStop)
      && (UnexportAll in plan <==> unexport)
      && Targets(plan, Containers) == (if dockerStop then ids else [])
      && Targets(plan, Services) == names
      && InPhaseOrder(plan)
  {
    DockerTargets(docker, dockerStop, ids);
    PlanMembers(schedule, docker, services, nfs, dockerStop, unexport);
    TargetsOfStops(names);
    TargetsOfOthers(schedule, Containers);
    TargetsOfOthers(schedule, Services);
    TargetsOfOthers(nfs, Containers);
    TargetsOfOthers(nfs, Services);
    PlanTargets(schedule, docker, services, nfs, Containers);
    PlanTargets(schedule, docker, services, nfs, Services);
    PlanOrder(schedule, docker, services, nfs);
  }

  lemma DockerTargets(docker: seq<Command>, dockerStop: bool, ids: seq<string>)
    requires docker == if dockerStop then [DockerPs] + StopContainers(ids) else []
    ensures Targets(docker, Containers) == if dockerStop then ids else []
    ensures Targets(docker, Services) == []
    ensures forall i :: 1 <= i < |docker| ==> docker[i].DockerStop?
  {
    TargetsOfStops(ids);
    if dockerStop {
      TargetsConcat([DockerPs], StopContainers(ids), Containers);
      TargetsConcat([DockerPs], StopContainers(ids), Services);
    }
  }

  lemma PlanMembers(schedule: seq<Command>, docker: seq<Command>, services: seq<Command>,
                    nfs: seq<Command>, dockerStop: bool, unexport: bool)
    requires |schedule| == 1 && schedule[0].ScheduleShutdown?
    requires dockerStop ==> |docker| > 0 && docker[0] == DockerPs
    requires !dockerStop ==> docker == []
    requires forall i :: 1 <= i < |docker| ==> docker[i].DockerStop?
    requires forall i :: 0 <= i < |services| ==> services[i].SystemctlStop?
    requires nfs == if unexport then [UnexportAll] else []
    ensures var plan := schedule + docker + services + nfs + [Sync];
      && (DockerPs in plan <==> dockerStop)
      && (UnexportAll in plan <==> unexport)
  {
    var plan := schedule + docker + services + nfs + [Sync];
    var a := |schedule|;
    var b := a + |docker|;
    var c := b + |services|;
    var d := c + |nfs|;
    forall i | 0 <= i < |plan|
      ensures plan[i] == DockerPs ==> dockerStop
      ensures plan[i] == UnexportAll ==> unexport
    {
      if i < a {
        assert plan[i] == schedule[i];
      } else if i < b {
        assert plan[i] == docker[i - a];
      } else if i < c {
        assert plan[i] == services[i - b];
      } else if i < d {
        assert plan[i] == nfs[i - c];
      } else {
        assert plan[i] == Sync;
      }
    }
    if dockerStop {
      assert plan[1] == DockerPs;
    }
    if unexport {
      assert plan[|plan| - 2] == UnexportAll;
    }
  }

  lemma PlanTargets(schedule: seq<Command>, docker: seq<Command>, services: seq<Command>,
                    nfs: seq<Command>, kind: Kind)
    requires Targets(schedule, kind) == [] && Targets(nfs, kind) == []
    ensures Targets(schedule + docker + services + nfs + [Sync], kind)
      == Targets(docker, kind) + Targets(services, kind)
  {
    var p1 := schedule + docker;
    var p2 := p1 + services;
    var p3 := p2 + nfs;
    TargetsConcat(schedule, docker, kind);
    assert Targets(p1, kind) == Targets(docker, kind);
    TargetsConcat(p1, services, kind);
    assert Targets(p2, kind) == Targets(docker, kind) + Targets(services, kind);
    TargetsConcat(p2, nfs, kind);
    assert Targets(p3, kind) == Targets(p2, kind);
    TargetsConcat(p3, [Sync], kind);
    assert Targets([Sync], kind) == [];
  }

  lemma PlanOrder(schedule: seq<Command>, docker: seq<Command>, services: seq<Command>, nfs: seq<Command>)
    requires |schedule| == 1 && schedule[0].ScheduleShutdown?
    requires docker == [] || (docker[0] == DockerPs && forall i :: 1 <= i < |docker| ==> docker[i].DockerStop?)
    requires forall i :: 0 <= i < |services| ==> services[i].SystemctlStop?
    requires nfs == [] || nfs == [UnexportAll]
    ensures InPhaseOrder(schedule + docker + services + nfs + [Sync])
  {
    OrderedConcat(schedule, docker, 1);
    OrderedConcat(schedule + docker, services, 3);
    OrderedConcat(schedule + docker + services, nfs, 4);
    OrderedConcat(schedule + docker + services + nfs, [Sync], 5);
  }

  /** `run_shutdown` with the spawner: the output of `docker ps -q` is what
      the command spawned second printed (it is only used when `docker ps` is
      part of the plan, and so the second command issued). */
  function RunShutdown(config: Config, spawn: Spawner, n: nat): (t: Trace)
    ensures |t.events| <= |ShutdownPlan(config, StdoutOf(spawn(n + 1)))|
    ensures var plan := ShutdownPlan(config, StdoutOf(spawn(n + 1)));
      Issued(t) == plan[..|t.events|]
    ensures t.ending != Finished ==> |t.events| >= 1
  {
    var plan := ShutdownPlan(config, StdoutOf(spawn(n + 1)));
    IssuedPrefix(plan, spawn, n);
    Execute(plan, spawn, n)
  }

  lemma IssuedPrefix(cmds: seq<Command>, spawn: Spawner, n: nat)
    ensures var t := Execute(cmds, spawn, n); Issued(t) == cmds[..|t.events|]
  {
    var t := Execute(cmds, spawn, n);
    assert forall i :: 0 <= i < |t.events| ==> Issued(t)[i] == cmds[i];
  }

  /** The listed container ids are plain ASCII. */
  predicate AsciiIds(stdout: string) {
    var ids := ContainerIds(stdout);
    forall i :: 0 <= i < |ids| ==> IsAscii(ids[i])
  }

  /** While every command can be spawned and the container ids are ASCII,
      the whole plan is issued, whatever the exit statuses. */
  lemma ShutdownRunsWholePlan(config: Config, spawn: Spawner, n: nat)
    requires var plan := ShutdownPlan(config, StdoutOf(spawn(n + 1)));
      SpawnsBetween(spawn, n, n + |plan|)
    requires AsciiIds(StdoutOf(spawn(n + 1)))
    ensures Issued(RunShutdown(config, spawn, n)) == ShutdownPlan(config, StdoutOf(spawn(n + 1)))
    ensures RunShutdown(config, spawn, n).ending == Finished
  {
    var ids := ContainerIds(StdoutOf(spawn(n + 1)));
    var plan := ShutdownPlan(config, StdoutOf(spawn(n + 1)));
    forall i | 0 <= i < |plan| && plan[i].DockerStop?
      ensures ShortId(plan[i].container).Some?
    {
      assert plan[i].container in Targets(plan, Containers) by {
        TargetIn(plan, i);
      }
      var j :| 0 <= j < |ids| && ids[j] == plan[i].container;
      ShortIdAscii(ids[j]);
    }
    ExecuteAll(plan, spawn, n);
  }

  lemma {:induction false} TargetIn(cmds: seq<Command>, i: nat)
    requires i < |cmds| && cmds[i].DockerStop?
    ensures cmds[i].container in Targets(cmds, Containers)
    decreases |cmds|
  {
    if i > 0 {
      TargetIn(cmds[1..], i - 1);
    }
  }

  /** A command that cannot be spawned ends the sequence: nothing after it
      in the plan is issued. */
  lemma ShutdownStopsAtSpawnError(config: Config, spawn: Spawner, n: nat, k: nat)
    requires var plan := ShutdownPlan(config, StdoutOf(spawn(n + 1)));
      && k < |plan|
      && SpawnsBetween(spawn, n, n + k)
      && NoPanics(plan[..k])
      && spawn(n + k).SpawnFailed?
    ensures Issued(RunShutdown(config, spawn, n)) == ShutdownPlan(config, StdoutOf(spawn(n + 1)))[..k + 1]
    ensures RunShutdown(config, spawn, n).ending == IoError
  {
    ExecuteStopsAtSpawnError(ShutdownPlan(config, StdoutOf(spawn(n + 1))), spawn, n, k);
  }
}

=== FILE: text.dfy ===
/**
 The string operations of Rust's `str` that the program relies on:
 `trim`, `split(char)`, `lines` and byte-offset slicing (`&s[..n]`).
 Strings are sequences of Unicode scalar values, as Rust's `str` is.
 */
module Text {
  import opened Wrappers

  /** Rust's `char::is_whitespace`: U+0020 and U+0009..U+000D, and above
      U+007F every character with the Unicode White_Space property. */
  predicate IsWhitespace(c: char) {
    var n := c as int;
    || n == 0x20 || 0x09 <= n <= 0x0D
    || n == 0x85 || n == 0xA0 || n == 0x1680 || 0x2000 <= n <= 0x200A
    || n == 0x2028 || n == 0x2029 || n == 0x202F || n == 0x205F || n == 0x3000
  }

  predicate AllWhitespace(s: string) {
    forall i :: 0 <= i < |s| ==> IsWhitespace(s[i])
  }

  predicate NoWhitespace(s: string) {
    forall i :: 0 <= i < |s| ==> !IsWhitespace(s[i])
  }

  /** A string with no whitespace at either end: what `trim` leaves behind. */
  predicate Tight(s: string) {
    |s| == 0 || (!IsWhitespace(s[0]) && !IsWhitespace(s[|s| - 1]))
  }

  // ---------------------------------------------------------------- trim

  /** Where `trim_start` cuts: the first non-whitespace index from `i` on. */
  function FirstSolid(s: string, i: nat): (k: nat)
    requires i <= |s|
    ensures i <= k <= |s|
    ensures forall m :: i <= m < k ==> IsWhitespace(s[m])
    ensures k < |s| ==> !IsWhitespace(s[k])
    decreases |s| - i
  {
    if i < |s| && IsWhitespace(s[i]) then FirstSolid(s, i + 1) else i
  }

  /** Where `trim_end` cuts: the end of the last non-whitespace character
      before `j`. */
  function EndOfSolid(s: string, j: nat): (k: nat)
    requires j <= |s|
    ensures k <= j
    ensures forall m :: k <= m < j ==> IsWhitespace(s[m])
    ensures k > 0 ==> !IsWhitespace(s[k - 1])
    decreases j
  {
    if j > 0 && IsWhitespace(s[j - 1]) then EndOfSolid(s, j - 1) else j
  }

  /** `trim`: the result is a tight slice of `s` with only whitespace around it. */
  function Trim(s: string): (r: string)
    ensures Tight(r)
    ensures exists i :: (0 <= i <= |s| - |r| && r == s[i..i + |r|]
      && AllWhitespace(s[..i]) && AllWhitespace(s[i + |r|..]))
  {
    var i := FirstSolid(s, 0);
    var j := EndOfSolid(s, |s|);
    if i < j then
      assert AllWhitespace(s[..i]) && AllWhitespace(s[j..]);
      s[i..j]
    else
      assert AllWhitespace(s[..0]) && AllWhitespace(s[0..]) by {
        assert i == |s|;
      }
      assert s[0..0] == "";
      ""
  }

  /** `trim` is determined by its characterisation: padding a tight string
      with whitespace on both sides and trimming gives the string back. */
  lemma TrimPadded(pre: string, t: string, post: string)
    requires AllWhitespace(pre) && AllWhitespace(post) && Tight(t)
    ensures Trim(pre + t + post) == t
  {
    var s := pre + t + post;
    if |t| == 0 {
      assert forall m :: 0 <= m < |s| ==> IsWhitespace(s[m]) by {
        forall m | 0 <= m < |s| ensures IsWhitespace(s[m]) {
          if m < |pre| {
            assert s[m] == pre[m];
          } else {
            assert s[m] == post[m - |pre|];
          }
        }
      }
      FirstSolidAt(s, 0, |s|);
    } else {
      var a, b := |pre|, |pre| + |t|;
      assert forall m :: 0 <= m < a ==> s[m] == pre[m];
      assert forall m :: b <= m < |s| ==> s[m] == post[m - b];
      assert s[a] == t[0] && s[b - 1] == t[|t| - 1];
      FirstSolidAt(s, 0, a);
      EndOfSolidAt(s, |s|, b);
      assert s[a..b] == t;
    }
  }

  /** `FirstSolid` stops at the first non-whitespace index (or the end). */
  lemma {:induction false} FirstSolidAt(s: string, i: nat, k: nat)
    requires i <= k <= |s|
    requires forall m :: i <= m < k ==> IsWhitespace(s[m])
    requires k < |s| ==> !IsWhitespace(s[k])
    ensures FirstSolid(s, i) == k
    decreases k - i
  {
    if i < k {
      FirstSolidAt(s, i + 1, k);
    }
  }

  /** `EndOfSolid` stops after the last non-whitespace character (or at 0). */
  lemma {:induction false} EndOfSolidAt(s: string, j: nat, k: nat)
    requires k <= j <= |s|
    requires forall m :: k <= m < j ==> IsWhitespace(s[m])
    requires k > 0 ==> !IsWhitespace(s[k - 1])
    ensures EndOfSolid(s, j) == k
    decreases j - k
  {
    if k < j {
      EndOfSolidAt(s, j - 1, k);
    }
  }

  /** A string that is already tight is left alone by `trim`. */
  lemma TrimTight(t: string)
    requires Tight(t)
    ensures Trim(t) == t
  {
    TrimPadded("", t, "");
    assert "" + t + "" == t;
  }

  // ---------------------------------------------------------------- split / join

  /** Joins segments with `sep` between neighbours: the inverse of `Split`. */
  function Join(segs: seq<string>, sep: char): string
    decreases |segs|
  {
    if |segs| == 0 then ""
    else if |segs| == 1 then segs[0]
    else segs[0] + [sep] + Join(segs[1..], sep)
  }

  predicate Separated(segs: seq<string>, sep: char) {
    forall i :: 0 <= i < |segs| ==> sep !in segs[i]
  }

  /** `str::split(sep)` collected: always at least one segment (the empty
      string gives `[""]`), no segment contains `sep`, and joining the
      segments with `sep` rebuilds the input. */
  function Split(s: string, sep: char): (r: seq<string>)
    ensures |r| >= 1
    ensures Separated(r, sep)
    ensures Join(r, sep) == s
    decreases |s|
  {
    if |s| == 0 then [""]
    else
      var rest := Split(s[1..], sep);
      if s[0] == sep then
        assert s == [sep] + s[1..];
        [""] + rest
      else
        var r := [[s[0]] + rest[0]] + rest[1..];
        assert r[1..] == rest[1..];
        assert s == [s[0]] + s[1..];
        r
  }

  /** Two separated segment lists with the same join are equal. */
  lemma {:induction false} JoinInjective(a: seq<string>, b: seq<string>, sep: char)
    requires |a| >= 1 && |b| >= 1
    requires Separated(a, sep) && Separated(b, sep)
    requires Join(a, sep) == Join(b, sep)
    ensures a == b
    decreases |a|
  {
    var s := Join(a, sep);
    JoinCut(a, sep);
    JoinCut(b, sep);
    if |a| == 1 && |b| == 1 {
    } else if |a| == 1 {
      assert false;
    } else if |b| == 1 {
      assert false;
    } else {
      if |a[0]| < |b[0]| {
        assert false;
      } else if |b[0]| < |a[0]| {
        assert false;
      }
      assert a[0] == s[..|a[0]|] == b[0];
      assert Join(a[1..], sep) == s[|a[0]| + 1..] == Join(b[1..], sep);
      JoinInjective(a[1..], b[1..], sep);
      assert a == [a[0]] + a[1..];
      assert b == [b[0]] + b[1..];
    }
  }

  /** Where the first separator of a join sits, and what lies either side of it. */
  lemma JoinCut(segs: seq<string>, sep: char)
    requires |segs| >= 1
    ensures |segs| == 1 ==> Join(segs, sep) == segs[0]
    ensures |segs| >= 2 ==>
      var s := Join(segs, sep);
      && |segs[0]| < |s|
      && s[..|segs[0]|] == segs[0]
      && s[|segs[0]|] == sep
      && s[|segs[0]| + 1..] == Join(segs[1..], sep)
  {
    if |segs| >= 2 {
      var s := Join(segs, sep);
      assert s == segs[0] + [sep] + Join(segs[1..], sep);
      assert s[|segs[0]| + 1..] == Join(segs[1..], sep);
    }
  }

  /** Splitting a join gives back the separated segments. */
  lemma SplitJoin(segs: seq<string>, sep: char)
    requires |segs| >= 1 && Separated(segs, sep)
    ensures Split(Join(segs, sep), sep) == segs
  {
    JoinInjective(Split(Join(segs, sep), sep), segs, sep);
  }

  /** Joining whitespace-free segments with a non-whitespace separator
      gives a whitespace-free string. */
  lemma {:induction false} JoinNoWhitespace(segs: seq<string>, sep: char)
    requires !IsWhitespace(sep)
    requires forall i :: 0 <= i < |segs| ==> NoWhitespace(segs[i])
    ensures NoWhitespace(Join(segs, sep))
    decreases |segs|
  {
    if |segs| >= 2 {
      JoinNoWhitespace(segs[1..], sep);
      var rest := Join(segs[1..], sep);
      var s := Join(segs, sep);
      assert s == segs[0] + [sep] + rest;
      forall k | 0 <= k < |s| ensures !IsWhitespace(s[k]) {
        if k < |segs[0]| {
          assert s[k] == segs[0][k];
        } else if k > |segs[0]| {
          assert s[k] == rest[k - |segs[0]| - 1];
        }
      }
    }
  }

  /** Joining with one more segment appends a separator and that segment. */
  lemma {:induction false} JoinSnoc(segs: seq<string>, last: string, sep: char)
    requires |segs| >= 1
    ensures Join(segs + [last], sep) == Join(segs, sep) + [sep] + last
    decreases |segs|
  {
    if |segs| == 1 {
      assert segs + [last] == [segs[0], last];
      assert [segs[0], last][1..] == [last];
    } else {
      assert (segs + [last])[1..] == segs[1..] + [last];
      JoinSnoc(segs[1..], last, sep);
    }
  }

  /** The ends of a join are the outer ends of its first and last segments. */
  lemma JoinTight(segs: seq<string>, sep: char)
    requires |segs| >= 1
    requires |segs[0]| > 0 && !IsWhitespace(segs[0][0])
    requires var last := segs[|segs| - 1]; |last| > 0 && !IsWhitespace(last[|last| - 1])
    ensures Tight(Join(segs, sep))
  {
    var s := Join(segs, sep);
    var last := segs[|segs| - 1];
    JoinCut(segs, sep);
    if |segs| >= 2 {
      var init := segs[..|segs| - 1];
      assert segs == init + [last];
      JoinSnoc(init, last, sep);
      assert s[|s| - 1] == last[|last| - 1];
      assert s[..|segs[0]|][0] == segs[0][0];
    }
  }

  // ---------------------------------------------------------------- lines

  /** The `\r` of a `\r\n` line ending, removed. */
  function StripCr(line: string): string {
    if |line| > 0 && line[|line| - 1] == '\r' then line[..|line| - 1] else line
  }

  /** `str::lines`: the `\n`-separated pieces, each terminated piece losing a
      final `\r`, and no piece after a final `\n`; the empty string has none. */
  function Lines(s: string): (r: seq<string>)
    ensures forall i :: 0 <= i < |r| ==> '\n' !in r[i]
  {
    var segs := Split(s, '\n');
    var last := segs[|segs| - 1];
    var ended := seq(|segs| - 1, i requires 0 <= i < |segs| - 1 => StripCr(segs[i]));
    ended + (if last == "" then [] else [last])
  }

  /** Items joined by `\n` read back as those items, provided none holds a
      line break and the last is not empty. */
  lemma LinesOfJoin(items: seq<string>)
    requires |items| >= 1 && |items[|items| - 1]| > 0
    requires forall i :: 0 <= i < |items| ==> '\n' !in items[i] && '\r' !in items[i]
    ensures Lines(Join(items, '\n')) == items
  {
    assert Separated(items, '\n');
    SplitJoin(items, '\n');
    LinesOfSegments(Join(items, '\n'), items);
  }

  lemma LinesOfSegments(s: string, items: seq<string>)
    requires Split(s, '\n') == items && |items[|items| - 1]| > 0
    requires forall i :: 0 <= i < |items| ==> '\r' !in items[i]
    ensures Lines(s) == items
  {
    forall i | 0 <= i < |items| - 1
      ensures StripCr(items[i]) == items[i]
    {
      if |items[i]| > 0 {
        assert items[i][|items[i]| - 1] in items[i];
      }
    }
    var ended := seq(|items| - 1, i requires 0 <= i < |items| - 1 => StripCr(items[i]));
    assert ended == items[..|items| - 1];
    assert items == items[..|items| - 1] + [items[|items| - 1]];
  }

  // ---------------------------------------------------------------- utf-8 slicing

  /** Every character of `s` is a single byte in UTF-8. */
  predicate IsAscii(s: string) {
    forall i :: 0 <= i < |s| ==> s[i] as int < 0x80
  }

  /** Number of bytes `c` occupies in UTF-8. */
  function Utf8Width(c: char): (w: nat)
    ensures 1 <= w <= 4
    ensures w == 1 <==> c as int < 0x80
  {
    var n := c as int;
    if n < 0x80 then 1 else if n < 0x800 then 2 else if n < 0x10000 then 3 else 4
  }

  /** `str::len`: the length of `s` in UTF-8 bytes. */
  function ByteLen(s: string): (n: nat)
    ensures n >= |s|
    decreases |s|
  {
    if |s| == 0 then 0 else Utf8Width(s[0]) + ByteLen(s[1..])
  }

  /** `&s[..n]`: the prefix of `s` that is exactly `n` bytes long, or `None`
      where Rust panics because byte `n` is not on a character boundary (or
      lies past the end). */
  function BytePrefix(s: string, n: nat): (r: Option<string>)
    ensures r.Some? ==> |r.value| <= |s| && r.value == s[..|r.value|] && ByteLen(r.value) == n
    decreases |s|
  {
    if n == 0 then
      assert s[..0] == "";
      Some("")
    else if |s| == 0 then None
    else
      var w := Utf8Width(s[0]);
      if w > n then None
      else
        match BytePrefix(s[1..], n - w)
        case None => None
        case Some(p) =>
          var r := [s[0]] + p;
          assert r[1..] == p;
          Some(r)
  }

  /** `&s[..n]` panics only where no prefix of `s` is `n` bytes long. */
  lemma {:induction false} BytePrefixNone(s: string, n: nat)
    requires BytePrefix(s, n).None?
    ensures forall k :: 0 <= k <= |s| ==> ByteLen(s[..k]) != n
    decreases |s|
  {
    assert n > 0;
    if |s| > 0 {
      var w := Utf8Width(s[0]);
      assert ByteLen(s[..0]) == 0 by { assert s[..0] == ""; }
      if w > n {
        forall k | 0 < k <= |s| ensures ByteLen(s[..k]) >= w {
          assert s[..k][1..] == s[1..k];
        }
      } else {
        BytePrefixNone(s[1..], n - w);
        forall k | 0 < k <= |s| ensures ByteLen(s[..k]) == w + ByteLen(s[1..][..k - 1]) {
          assert s[..k][1..] == s[1..][..k - 1];
        }
      }
    }
  }

  /** For plain ASCII the byte prefix is the character prefix and never panics. */
  lemma {:induction false} BytePrefixAscii(s: string, n: nat)
    requires IsAscii(s)
    requires n <= |s|
    ensures BytePrefix(s, n) == Some(s[..n])
    decreases |s|
  {
    if n > 0 {
      BytePrefixAscii(s[1..], n - 1);
      assert s[..n] == [s[0]] + s[1..][..n - 1];
    }
  }

  lemma {:induction false} ByteLenAscii(s: string)
    requires IsAscii(s)
    ensures ByteLen(s) == |s|
    decreases |s|
  {
    if |s| > 0 {
      ByteLenAscii(s[1..]);
    }
  }
}

=== FILE: wrappers.dfy ===
/** The optional value used wherever the program returns a Rust `Option`. */
module Wrappers {

  datatype Option<+T> = None | Some(value: T) {

    /** `unwrap_or`: the carried value, or `default` when there is none. */
    function GetOr(default: T): (r: T)
      ensures Some? ==> r == value
      ensures None? ==> r == default
    {
      match this
      case Some(v) => v
      case None => default
    }
  }
}
